=== FILE: README.md ===
# Applet viewer, its menu bar and the finder file icon — a Dafny model

This project models the decision logic of three React components of ryOS, a
web desktop environment:

- The **applet viewer** window shows a user's HTML "applet". The project
  models the following parts of it:
  - how an uploaded file is named when it is imported: the leading emoji
    becomes the file's icon, the name gets a `.app` suffix, and the file goes
    under `/Applets/`;
  - how the two exports ("ryOS App" and "HTML") name their downloads;
  - the window title;
  - how the macOS X theme injects its font fix into the applet's HTML;
  - how the window size is restored from and mirrored into the per-applet
    size store;
  - how a click inside the applet brings a background window forward.
- The viewer's **menu bar**:
  - the File menu's export submenu;
  - the Window menu listing the open applet windows, their file names and
    the active marker;
  - where the bar is placed.
- The finder's **file icon**:
  - the emoji-versus-path test for icon strings;
  - the raster-image test;
  - the themed-icon path;
  - the choice between thumbnail, emoji glyph and themed icon;
  - the thumbnail-source state machine: one regeneration of a failing object
    URL, an absorbing fallback to the icon, and ownership of at most one
    object URL;
  - click and double-click dispatch on touch and non-touch devices.

Each rule is a pure function over strings, sequences, sets and maps. The two
stateful parts are immutable state records with transition functions. One is
the image source (`ImageSourceState`); the other is the size sync and focus
handling (`WindowState`).

Modules:

| file | module | contents |
|---|---|---|
| wrappers.dfy | `Wrappers` | `Option` |
| text.dfy | `Text` | JavaScript whitespace, trim, ASCII case folding, UTF-16 length, last path segment |
| applet_names.dfy | `AppletNames` | emoji split, import suffix rule, base name, display name, window title |
| applet_files.dfy | `AppletFiles` | import, exports, and the export/import round trips |
| font_injection.dfy | `FontInjection` | `ensureMacFonts` and its searches |
| window_state.dfy | `WindowState` | apply and persist the window size; bring the window forward on interaction |
| file_icon.dfy | `FileIcon` | emoji and image tests, icon path, render choice, click dispatch |
| image_source.dfy | `ImageSourceState` | the thumbnail source, its retry and its fallback |
| menu_bar.dfy | `MenuBar` | the Window and File menus, and where the bar is placed |
| import_input.dfy | `ImportInput` | the hidden file input and the reset after an import |

Modelling conventions:

- A Dafny `char` is one Unicode code point, as the import's `/u` emoji
  pattern sees text. JavaScript's `.length` counts UTF-16 code units, and
  `Text.Utf16Len` models it: a code point above U+FFFF counts twice.
- JavaScript's `\s` and the characters `trim()` removes are the same set,
  `Text.IsSpace`. `s.trim().length > 0` is written `!IsBlank(s)`;
  `Text.TrimEmptyIffBlank` proves the two agree.
- `toLowerCase` and the `/i` patterns are modelled by ASCII case folding.
  Every pattern involved is ASCII, and the fold keeps the length. So an
  index into the lower-cased copy, as `ensureMacFonts` uses one, is an index
  into the original.
- Optional strings such as `icon`, `contentUrl`, `initialData.path` and
  the viewer's own `instanceId` are modelled as `""` when absent. The viewer
  and the file icon only test their truthiness, and `undefined` and `""`
  behave alike under that test.
- The menu bar's `instanceId` property is the exception: its Window menu
  compares it with `===` (AppletViewerMenuBar.tsx line 143), where
  `undefined` and `""` differ. `MenuBar` models it as an `Option<string>`.
- The stores (`useAppStore`, `useAppletStore`), the file system and the
  launcher are not part of this model:
  - the stores' state is passed in as maps or sequences;
  - what the code asks of them (a window update, a size write, a saved
    file, a launch) is returned as data;
  - whether the save succeeds is a parameter of the import.
- `URL.createObjectURL` hands out the next number of a counter and records
  it as live. `URL.revokeObjectURL` removes a number from the live set.

Quirks of the code that the model reproduces, each with a lemma:

- The import's suffix tests are case-sensitive, so `X.HTML` becomes
  `X.HTML.app` (`AppletNames.UpperCaseMarkupGetsAppended`).
- The window title has no "Untitled" default, so `/Applets/.app` gives an
  empty title (`AppletNames.WindowTitleCanBeEmpty`).
- `<head[^>]*>` also matches `<header>` (`FontInjection.HeaderTagTakenForHead`).
- An upper-case `</HEAD>` is found (`FontInjection.UpperCaseHeadCloseMatches`).
- On a touch device a click opens the entry only when an open handler is
  supplied. Without one, a click still calls the click handler
  (`FileIcon.HandleClick`).
- The viewer never passes its instance id to the menu bar, so no Window-menu
  entry is ever checked (`MenuBar.NoEntryActiveWithoutId`).
- A file named `PNG`, with no dot at all, counts as an image
  (`FileIcon.UpperCaseBareNameIsImage`).
- An applet whose stored icon is ❤️ (U+2764 U+FE0F) exports as
  `❤️ <b>.app`, and importing that file saves it as `/Applets/\u{FE0F} <b>.app`
  with the bare heart as icon (`AppletFiles.HeartExport`,
  `AppletFiles.VariationSelectorIconBreaksRoundTrip`). The export's emoji test
  is a length test, and the import's pattern has no variation selectors.

## Model

| member | source | states |
|---|---|---|
| Text.TrimStart | src/apps/applet-viewer/components/AppletViewerAppComponent.tsx:36 | the result is a suffix of the input, everything cut off is whitespace, and the result does not start with whitespace |
| Text.TrimEnd | src/apps/applet-viewer/components/AppletViewerAppComponent.tsx:36 | the result is a prefix of the input, everything cut off is whitespace, and the result does not end with whitespace |
| Text.TrimEmptyIffBlank | src/apps/applet-viewer/components/AppletViewerAppComponent.tsx:36 | `trim()` yields the empty string exactly when every character is whitespace, so `hasAppletContent` means "some non-whitespace character" |
| Text.Lower | src/apps/finder/components/FileIcon.tsx:106 | lower-casing keeps the length and folds each character on its own |
| Text.Utf16Len | src/apps/finder/components/FileIcon.tsx:124 | the UTF-16 length lies between the number of code points and twice that number |
| Text.AfterLast | src/apps/finder/components/FileIcon.tsx:106 | `split(sep).pop()` is the longest suffix free of the separator; when it is shorter than the text, a separator precedes it |
| Text.LastSegment | src/apps/applet-viewer/components/AppletViewerAppComponent.tsx:92-93 | the last path segment has no `/`, ends the path, and is either the whole path or preceded by `/` |
| AppletNames.ExtractEmojiIcon | src/apps/applet-viewer/components/AppletViewerAppComponent.tsx:145-164 | no emoji and the text unchanged exactly when the first code point is outside the listed ranges; otherwise the text is the emoji run, then only whitespace, then the rest; the emoji run is maximal and the rest does not start with whitespace |
| AppletNames.ExtractEmojiIconUnique | src/apps/applet-viewer/components/AppletViewerAppComponent.tsx:149-157 | every split of a text into an emoji run, whitespace and a rest that starts with neither is the one the pattern finds |
| AppletNames.StripAppletExtension | src/apps/applet-viewer/components/AppletViewerAppComponent.tsx:94 | the result is a prefix of the name; it is the name unchanged exactly when the name does not end in `.html` or `.app` in any case; otherwise exactly that extension was cut off |
| AppletNames.MarkupSuffixReplaced | src/apps/applet-viewer/components/AppletViewerAppComponent.tsx:183-184 | on a name ending in lower-case `.html` or `.htm`, the case-insensitive replacement cuts exactly that ending, and such a name does not end in `.app` |
| AppletNames.NormalizeImportName | src/apps/applet-viewer/components/AppletViewerAppComponent.tsx:182-187 | the name always ends in `.app`: unchanged if it already did; `.html`/`.htm` replaced with the stem kept; otherwise `.app` appended |
| AppletNames.NormalizeImportNameIdempotent | src/apps/applet-viewer/components/AppletViewerAppComponent.tsx:183-187 | applying the suffix rule twice is the same as applying it once |
| AppletNames.UpperCaseMarkupGetsAppended | src/apps/applet-viewer/components/AppletViewerAppComponent.tsx:183-186 | the suffix tests are case-sensitive: `X.HTML` becomes `X.HTML.app` |
| AppletNames.BaseName | src/apps/applet-viewer/components/AppletViewerAppComponent.tsx:91-95 | `getFileName` has no `/` and is a prefix of the last path segment |
| AppletNames.DisplayName | src/apps/applet-viewer/components/AppletViewerAppComponent.tsx:243-248 | the export base name is never empty and has no `/`; it is the base name when the path and the base name are non-empty, and "Untitled" otherwise |
| AppletNames.WindowTitle | src/apps/applet-viewer/components/AppletViewerAppComponent.tsx:369-370 | the title is the base name when the content has a non-whitespace character and the path is set, and "Applet Viewer" otherwise |
| AppletNames.WindowTitleCanBeEmpty | src/apps/applet-viewer/components/AppletViewerAppComponent.tsx:91-95 | unlike the export name, the title has no "Untitled" default: `/Applets/.app` gives "" |
| AppletFiles.ImportFile | src/apps/applet-viewer/components/AppletViewerAppComponent.tsx:167-230 | nothing happens without a file; the import fails exactly when the text cannot be read or the save fails; otherwise the saved name is the normalised name after the emoji, ending in `.app`, the path is `/Applets/` plus that name, the icon is the extracted emoji, and the new window gets the same path and content |
| AppletFiles.ImportSucceeds | src/apps/applet-viewer/components/AppletViewerAppComponent.tsx:176-198 | a readable upload whose save succeeds is saved and launched under the normalised remaining name, with the extracted emoji as icon |
| AppletFiles.ImportEmojiNamedMarkup | src/apps/applet-viewer/components/AppletViewerAppComponent.tsx:176-198 | an upload `<e> <stem>.html`, for an emoji run e and a stem starting with neither emoji nor whitespace, splits into e and `<stem>.html` and is saved and launched as `/Applets/<stem>.app` with icon e |
| AppletFiles.ImportNotesWithPalette | src/apps/applet-viewer/components/AppletViewerAppComponent.tsx:176-198 | "🎨 Notes.html" is saved as `/Applets/Notes.app` with icon 🎨 |
| AppletFiles.MarkupNameNormalizes | src/apps/applet-viewer/components/AppletViewerAppComponent.tsx:183-184 | `stem.html` is imported as `stem.app` |
| AppletFiles.ImportPlainName | src/apps/applet-viewer/components/AppletViewerAppComponent.tsx:177-187 | a name without emoji and extension keeps its text and gains `.app` |
| AppletFiles.ImportNotIdempotent | src/apps/applet-viewer/components/AppletViewerAppComponent.tsx:177-180 | only the suffix step is idempotent: for an emoji run e and a plain name x, the text left after the emoji split of "e e x" is "e x", and the text left after the split of "e x" is "x", so each import peels one emoji run |
| AppletFiles.FindByPath | src/apps/applet-viewer/components/AppletViewerAppComponent.tsx:251 | `files.find` returns the first entry with the path, and nothing exactly when no entry has it |
| AppletFiles.EmojiPrefix | src/apps/applet-viewer/components/AppletViewerAppComponent.tsx:254-262 | the prefix is the file's icon exactly when it passes the emoji-icon test, and 📦 otherwise |
| AppletFiles.ExportAsApp | src/apps/applet-viewer/components/AppletViewerAppComponent.tsx:239-269 | no download exactly when the content is blank; otherwise the content as is, named prefix, space, display name, `.app` |
| AppletFiles.ExportAsHtml | src/apps/applet-viewer/components/AppletViewerAppComponent.tsx:281-296 | no download exactly when the content is blank; otherwise the content named display name plus `.html`, without a prefix |
| AppletFiles.ExportsShareBaseName | src/apps/applet-viewer/components/AppletViewerAppComponent.tsx:243-248 | both exports use the same base name: the package name is the prefix, a space and the HTML name with `.app` for `.html` |
| AppletFiles.ExportAppWithEmoji | src/apps/applet-viewer/components/AppletViewerAppComponent.tsx:250-269 | `/Applets/<b>.app` whose entry has an emoji icon is exported as `<icon> <b>.app` |
| AppletFiles.AppletPathSegment | src/apps/applet-viewer/components/AppletViewerAppComponent.tsx:189 | the last segment of an imported path `/Applets/<b>.app` is `<b>.app` |
| AppletFiles.AppExtensionStripped | src/apps/applet-viewer/components/AppletViewerAppComponent.tsx:94 | `getFileName`'s replacement removes exactly the `.app` an import added |
| AppletFiles.AppletDisplayName | src/apps/applet-viewer/components/AppletViewerAppComponent.tsx:243-248 | the export base name of an imported path `/Applets/<b>.app` is `<b>` |
| AppletFiles.AppNameNormalizes | src/apps/applet-viewer/components/AppletViewerAppComponent.tsx:185 | a name ending in `.app` is imported unchanged |
| AppletFiles.ExportThenImportRoundTrip | src/apps/applet-viewer/components/AppletViewerAppComponent.tsx:239-269 | importing a package download restores the applet's path and content, and records the prefix as its icon, when the base name is plain and the prefix is an emoji run |
| AppletFiles.PrefixIsEmojiRun | src/apps/applet-viewer/components/AppletViewerAppComponent.tsx:254-262 | the package prefix is an emoji run for no icon, for an icon an import produced, and for every icon the emoji test rejects, which exports as 📦 |
| AppletFiles.HeartExport | src/apps/applet-viewer/components/AppletViewerAppComponent.tsx:250-269 | an applet whose stored icon is ❤️ (two code points) exports under the whole icon as prefix, because it passes the length-based emoji test |
| AppletFiles.HeartSplit | src/apps/applet-viewer/components/AppletViewerAppComponent.tsx:149-157 | the import's pattern ends the emoji run before U+FE0F, which then heads the remaining name |
| AppletFiles.HeartImport | src/apps/applet-viewer/components/AppletViewerAppComponent.tsx:176-198 | importing `❤️<rest>` with a `.app` rest saves it under `\u{FE0F}<rest>` with the bare heart as icon |
| AppletFiles.VariationSelectorIconBreaksRoundTrip | src/apps/applet-viewer/components/AppletViewerAppComponent.tsx:176-198 | the package download `❤️ <b>.app` imports as `/Applets/\u{FE0F} <b>.app` with icon U+2764, a different path from the one exported |
| AppletFiles.ImportedAppletTitle | src/apps/applet-viewer/components/AppletViewerAppComponent.tsx:369-370 | the window title of an imported applet `/Applets/<b>.app` with content is b, the name the import gave it |
| AppletFiles.ExportHtmlThenImportRoundTrip | src/apps/applet-viewer/components/AppletViewerAppComponent.tsx:281-296 | importing an HTML download restores the applet's path and content, without an icon, when the base name starts with neither emoji nor whitespace |
| FontInjection.LastIndexOfIgnoreCase | src/apps/applet-viewer/components/AppletViewerAppComponent.tsx:109 | found exactly when `</head>` occurs in any case; the index found is an occurrence and no later one exists |
| FontInjection.FindTag | src/apps/applet-viewer/components/AppletViewerAppComponent.tsx:120 | found exactly when some `<pat…>` tag occurs; the match is the leftmost one, running to the first `>` after the prefix |
| FontInjection.PlanInjection | src/apps/applet-viewer/components/AppletViewerAppComponent.tsx:108-138 | the tier chosen: the block goes before the last `</head>` if there is one; else after the leftmost `<head…>` tag; else a new head after the leftmost `<html…>` tag; the content is wrapped exactly when none of the three occurs |
| FontInjection.EnsureMacFonts | src/apps/applet-viewer/components/AppletViewerAppComponent.tsx:98-139 | the content is returned unchanged unless the theme is macosx and the content is non-empty; otherwise the block is spliced in at the planned position, or the content is wrapped into a new document |
| FontInjection.FontInjectionKeepsContent | src/apps/applet-viewer/components/AppletViewerAppComponent.tsx:98-139 | the result equals the content exactly when nothing is injected; in the splice tiers, cutting the inserted text out gives the content back; in the wrap tier, the content stands verbatim between the prefix ending in `<body>` and `</body></html>` |
| FontInjection.UpperCaseHeadCloseMatches | src/apps/applet-viewer/components/AppletViewerAppComponent.tsx:109 | `</HEAD>` is found like `</head>`, because the search runs on the lower-cased copy |
| FontInjection.HeaderTagTakenForHead | src/apps/applet-viewer/components/AppletViewerAppComponent.tsx:120-124 | content that starts with `<header>` and has no `</head>` gets the block right after `<header>` |
| WindowState.ApplySavedSize | src/apps/applet-viewer/components/AppletViewerAppComponent.tsx:56-74 | once applied, nothing more happens; the flag is set exactly when an instance id, a saved size and the instance all exist; an update is requested exactly when, in addition, the window's size is absent or differs; the update carries the saved size and the instance's position, or (0, 0) when it has none |
| WindowState.ApplyUpdate | src/apps/applet-viewer/components/AppletViewerAppComponent.tsx:71 | the store sets the named window's size and position and leaves every other window as it was |
| WindowState.SavedSizeReached | src/apps/applet-viewer/components/AppletViewerAppComponent.tsx:64-72 | after the requested update the window has the saved size, and running the effect again requests nothing |
| WindowState.RunApplyEffect | src/apps/applet-viewer/components/AppletViewerAppComponent.tsx:57-74 | over any sequence of renders, an already-set flag yields no updates, and any update leaves the flag set |
| WindowState.AppliedAtMostOnce | src/apps/applet-viewer/components/AppletViewerAppComponent.tsx:56-74 | over any sequence of renders of one mounted viewer, the saved size is applied at most once |
| WindowState.PersistSize | src/apps/applet-viewer/components/AppletViewerAppComponent.tsx:76-88 | a write happens exactly when the path is set, a live size exists and the stored size is absent or differs; afterwards the stored size is the live one; other paths are untouched; without a write the store is unchanged |
| WindowState.PersistSizeSettles | src/apps/applet-viewer/components/AppletViewerAppComponent.tsx:80-87 | running the mirror again on what it stored writes nothing, so it cannot loop |
| WindowState.CurrentWindowState | src/apps/applet-viewer/components/AppletViewerAppComponent.tsx:52-54 | with an instance id, the window state is that instance's registry entry, if any; without one, it is the per-app state |
| WindowState.AppliedSizeMirrorsBack | src/apps/applet-viewer/components/AppletViewerAppComponent.tsx:52-88 | at the first render after the saved size is applied, the window state the mirror reads has the saved size; the mirror stores it under the path, and writes nothing when the store still holds the saved size there |
| WindowState.RenderCommit | src/apps/applet-viewer/components/AppletViewerAppComponent.tsx:49-88 | one render's effects: the apply effect uses the render-time saved size; the mirror writes the render-time window size exactly when there is a path, a size, and it differs from the render-time saved size |
| WindowState.MountCommitOverwritesSavedSize | src/apps/applet-viewer/components/AppletViewerAppComponent.tsx:56-88 | a window that has another size W when the viewer mounts is resized to the saved size S, but the same commit's mirror writes W over the saved entry; the next render writes S back, and the one after writes nothing |
| WindowState.MountSettles | src/apps/applet-viewer/components/AppletViewerAppComponent.tsx:56-88 | whatever the window's size at mount, after the second render the store and the window both hold the saved size and the third render writes nothing; the mount commit writes exactly when the window had another size |
| WindowState.InteractRequest | src/apps/applet-viewer/components/AppletViewerAppComponent.tsx:322-334 | interaction asks to bring this window forward exactly when it has an instance id and a registry entry that is not in front |
| WindowState.BringToForeground | src/apps/applet-viewer/components/AppletViewerAppComponent.tsx:332 | the window is marked in front, and its size and position stay as they were |
| WindowState.InteractionSettles | src/apps/applet-viewer/components/AppletViewerAppComponent.tsx:328-334 | once the window is in front, further interaction requests nothing |
| FileIcon.PathIsNeverEmoji | src/apps/finder/components/FileIcon.tsx:119-125 | an icon starting with `/` or `http` is never an emoji, whatever its length |
| FileIcon.EmojiIconLengthBounds | src/apps/finder/components/FileIcon.tsx:119-125 | a non-path icon of at most five code points is an emoji; one of more than ten never is |
| FileIcon.SixAstralEmojiAreTooLong | src/apps/finder/components/FileIcon.tsx:124 | the bound counts UTF-16 units: six astral-plane emoji are twelve units, so they are not an emoji icon |
| FileIcon.LowerSuffix | src/apps/finder/components/FileIcon.tsx:106 | lower-casing a suffix is the same as taking the suffix of the lower-cased text |
| FileIcon.AfterLastAt | src/apps/finder/components/FileIcon.tsx:106 | the text after the last `.` starts right after a `.` that no later `.` follows, or at the start when there is no `.` |
| FileIcon.IsImageHasExtension | src/apps/finder/components/FileIcon.tsx:105-108 | a name the image test accepts is, in lower case, a known extension or ends in `.` plus one |
| FileIcon.ExtensionIsImage | src/apps/finder/components/FileIcon.tsx:105-108 | a name that, in lower case, is a known extension or ends in `.` plus one passes the image test |
| FileIcon.IsImageMatchesExtension | src/apps/finder/components/FileIcon.tsx:105-108 | the image test holds exactly when the lower-cased name is, or ends in `.` followed by, one of jpg, jpeg, png, gif, webp, bmp |
| FileIcon.UpperCaseBareNameIsImage | src/apps/finder/components/FileIcon.tsx:105-108 | a name without a dot is tested whole, so `PNG` counts as an image |
| FileIcon.IconPath | src/apps/finder/components/FileIcon.tsx:110-116 | a non-empty icon wins; then the directory icon; then the text icon for names ending `.txt` or `.md`; then the generic file icon; never empty |
| FileIcon.Render | src/apps/finder/components/FileIcon.tsx:186-237 | the thumbnail is shown exactly for an image name with a non-empty source and no fallback; otherwise the emoji glyph exactly when the icon passes the emoji test; otherwise the themed icon of the icon path |
| FileIcon.ThemedIconShowsNonEmojiIcon | src/apps/finder/components/FileIcon.tsx:205-237 | a themed icon drawn for a non-empty icon is that icon, which is a path, a URL or longer than ten units |
| FileIcon.HandleClick | src/apps/finder/components/FileIcon.tsx:240-250 | a click calls one handler at most; the open handler exactly on touch devices that supply it; the click handler exactly when supplied and the open handler was not called |
| FileIcon.HandleDoubleClick | src/apps/finder/components/FileIcon.tsx:252-257 | a double-click never calls the click handler, and calls the open handler exactly on non-touch devices that supply it |
| FileIcon.ClickPathsAreIndependent | src/apps/finder/components/FileIcon.tsx:240-257 | on touch devices a click followed by a double-click calls one handler at most, and with an open handler it opens exactly once and never calls the click handler; on other devices a click never opens |
| ImageSourceState.Revoke | src/apps/finder/components/FileIcon.tsx:85-88 | revoking removes exactly the remembered object URL from the live set |
| ImageSourceState.Regenerate | src/apps/finder/components/FileIcon.tsx:164-170 | the remembered URL is revoked, and a fresh one becomes live, remembered and shown; fallback and attempts are untouched |
| ImageSourceState.Init | src/apps/finder/components/FileIcon.tsx:45-48 | a new icon owns no object URL and has not fallen back; it shows `contentUrl` exactly when there is one |
| ImageSourceState.Setup | src/apps/finder/components/FileIcon.tsx:68-103 | after fallback nothing changes; otherwise the attempts are reset, and the source becomes `contentUrl`, else a fresh object URL for Blob content, else non-empty string content; without either the source is kept |
| ImageSourceState.ImageError | src/apps/finder/components/FileIcon.tsx:144-184 | the object URL is regenerated exactly when not fallen back, the image shows the component's own URL for Blob content and no retry was made; the retry is recorded; every other error sets the fallback and changes nothing else |
| ImageSourceState.Unmount | src/apps/finder/components/FileIcon.tsx:58-65 | the remembered object URL is revoked and nothing else changes |
| ImageSourceState.TransitionsKeepValid | src/apps/finder/components/FileIcon.tsx:58-103 | setup, error and unmount keep the rule that only the remembered URL can be live; after unmount no URL is live |
| ImageSourceState.AtMostOneLiveUrl | src/apps/finder/components/FileIcon.tsx:85-92 | under that rule at most one object URL is live |
| ImageSourceState.FallbackIsAbsorbing | src/apps/finder/components/FileIcon.tsx:68-70 | once fallen back, setup and error leave the state as it is, and the fallback survives unmount |
| ImageSourceState.SecondErrorFallsBack | src/apps/finder/components/FileIcon.tsx:152-183 | two load errors in a row always end in the icon: the retry budget is one |
| ImageSourceState.ForeignSourceFallsBack | src/apps/finder/components/FileIcon.tsx:153-158 | an error on any source other than the component's own Blob URL falls back at once |
| ImageSourceState.SetupRearmsRetry | src/apps/finder/components/FileIcon.tsx:72-94 | after setup for Blob content, the next error regenerates instead of falling back, and the new URL is fresh |
| ImageSourceState.FallbackShowsNoThumbnail | src/apps/finder/components/FileIcon.tsx:187 | after fallback no thumbnail is drawn |
| MenuBar.AppletInstances | src/apps/applet-viewer/components/AppletViewerMenuBar.tsx:52-54 | an instance is listed exactly when it is in the registry, belongs to the applet viewer and is open |
| MenuBar.AppletInstancesKeepOrder | src/apps/applet-viewer/components/AppletViewerMenuBar.tsx:52-54 | the filter distributes over concatenation, so it keeps registry order |
| MenuBar.EntryFor | src/apps/applet-viewer/components/AppletViewerMenuBar.tsx:134-143 | an entry is labelled with the display name of the instance's path and is active exactly when its id equals the given id |
| MenuBar.Entries | src/apps/applet-viewer/components/AppletViewerMenuBar.tsx:134-156 | there is one entry per instance, in order |
| MenuBar.WindowMenu | src/apps/applet-viewer/components/AppletViewerMenuBar.tsx:133-161 | the placeholder alone exactly when no applet window is open; otherwise one entry per open applet window, in registry order, with its display name, id and active marker |
| MenuBar.Caption | src/apps/applet-viewer/components/AppletViewerMenuBar.tsx:151-159 | an active entry reads "✓ " before its name, any other entry its name, and the placeholder "No applets open" |
| MenuBar.AtMostOneActive | src/apps/applet-viewer/components/AppletViewerMenuBar.tsx:143 | with distinct instance ids at most one entry is marked |
| MenuBar.NoEntryActiveWithoutId | src/apps/applet-viewer/components/AppletViewerAppComponent.tsx:307-316 | the viewer does not pass `instanceId`, so no entry is ever marked |
| MenuBar.ClickItem | src/apps/applet-viewer/components/AppletViewerMenuBar.tsx:146-160 | an entry click asks to bring forward its own instance; the disabled placeholder does nothing |
| MenuBar.EntryClickTargetsItsWindow | src/apps/applet-viewer/components/AppletViewerMenuBar.tsx:148 | clicking the i-th entry brings forward exactly the i-th open applet window |
| MenuBar.FileMenu | src/apps/applet-viewer/components/AppletViewerMenuBar.tsx:76-118 | Open and Import come first and Close last; the export submenu with its two formats is present exactly when there is content |
| MenuBar.ExportMenuMatchesExports | src/apps/applet-viewer/components/AppletViewerMenuBar.tsx:90-110 | the submenu is offered exactly when both exports produce a download |
| MenuBar.MenuBarPlacement | src/apps/applet-viewer/components/AppletViewerAppComponent.tsx:367-382 | nothing is shown while the window is closed; otherwise the menu bar sits inside the window frame exactly on the xp and win98 themes, and at the top of the screen exactly on other themes while the window is in front |
| MenuBar.CaptionsWithoutId | src/apps/applet-viewer/components/AppletViewerMenuBar.tsx:134-159 | as the viewer uses it, with no `instanceId`, the i-th Window-menu caption is the display name of the i-th open applet window, without a check mark |
| ImportInput.Choose | src/apps/applet-viewer/components/AppletViewerMenuBar.tsx:58-64 | choosing a file sets the input's value to it and fires `change` exactly when it differs from the previous value |
| ImportInput.ResetAsWritten | src/apps/applet-viewer/components/AppletViewerAppComponent.tsx:232-235 | the reset through the unattached `fileInputRef` leaves the input's value as it was |
| ImportInput.ResetCleared | src/apps/applet-viewer/components/AppletViewerAppComponent.tsx:232-235 | the intended reset leaves the input empty |
| ImportInput.InputMountedWhile | src/apps/applet-viewer/components/AppletViewerAppComponent.tsx:367-382 | the menu bar's file input exists on xp and win98 exactly while the window is open, and on other themes exactly while it is open and in front |
| ImportInput.ImportCount | src/apps/applet-viewer/components/AppletViewerAppComponent.tsx:167-235 | a sequence of choices and remounts triggers at most one import per choice; a remount brings the input back empty |
| ImportInput.SameFileTwiceImportsOnce | src/apps/applet-viewer/components/AppletViewerAppComponent.tsx:232-235 | as written, choosing the same file twice while the input stays mounted imports it only once |
| ImportInput.RemountBetweenImportsTwice | src/apps/applet-viewer/components/AppletViewerAppComponent.tsx:374 | a remount between the two choices, as when the window leaves the front on other themes, lets the second choice import |
| ImportInput.ClearedInputImportsEveryPick | src/apps/applet-viewer/components/AppletViewerAppComponent.tsx:232-235 | with the input cleared after each import, every choice of a file imports it, the same file included, with or without remounts |

## Left out

- Rendering: JSX, CSS classes, sizes, theme styling, dialogs, toasts,
  sounds and the long-press context menu are presentation. The empty-state
  screen of the viewer and the iframe's sandbox flags are also left out.
- Debug logging (the viewer's load log, the file icon's console messages) has no effect on state.
- Browser I/O is left out: `file.text()` (modelled as an optional text),
  the anchor-click download (modelled as a `Download` value), the
  `saveFile` custom event, the clipboard, and the share link of the Help
  menu.
- The reset of the file input at the end of the import handler never
  takes effect: it goes through the viewer's `fileInputRef`, which no element
  is attached to. The input that fires lives in the menu bar, under the menu
  bar's own ref. `ImportInput` models the consequence, listed under Findings below.
- Attaching and detaching the interaction listeners on the iframe
  document, including its `load` re-attachment and the swallowed
  cross-origin exception, is DOM plumbing. Only the handler's decision,
  `WindowState.InteractRequest`, is modelled.
- The stores' internals are not part of this model:
  - `bringInstanceToForeground` is modelled only by its effect on this
    window's flag. What it does to other windows belongs to the store.
  - `getAppletWindowSize` is a map lookup.
- The order of `Object.values(instances)` is taken to be the order of the
  registry sequence. Property order of string-keyed JavaScript objects is
  not modelled.
- Unicode case mapping beyond ASCII is left out. A character like `İ`,
  whose lower case is longer, would shift `ensureMacFonts`'s indices in
  the source.
- `FontInjection.FontStyle` does not hold the CSS rules of the font-fix
  style element. It keeps the element's tag with a placeholder body, and
  no property depends on the rule text.
- An object URL the component creates is never equal to a string source
  (`contentUrl` or string content). A caller could in principle pass back
  the very `blob:` URL the component made.
- The attempted-URL set's membership tests in setup are omitted. They
  always pass, because the set is cleared just before, so every string
  they could reject is accepted.
- `AppletFiles.ImportFile` treats a failed read and a failed save alike, as
  `ImportFailed`. The error toast is the only effect either has.
- WindowState.AppliedSizeMirrorsBack: describes the render after the
  update, not the commit that requests it. In that commit the mirror still
  reads the size the window had at render time. A window that already had
  another size therefore first has that size written over the saved entry,
  and the saved size is only written back at the next render
  (`WindowState.MountCommitOverwritesSavedSize`).
- `WindowState.Size` holds integers. JavaScript window sizes are numbers,
  and fractional sizes or NaN are not modelled; with NaN, `===` is not
  reflexive and `WindowState.PersistSizeSettles` would not hold.
- AppletFiles.ExportThenImportRoundTrip: requires the package prefix to be
  an emoji run. The icons excluded are those that pass the export's length
  test without being an emoji run, such as ❤️ with its variation selector.
  They do not survive the round trip
  (`AppletFiles.VariationSelectorIconBreaksRoundTrip`).
- ImportInput: the remounts of the menu bar are given as events. They are
  not derived from a history of themes and foreground changes;
  `ImportInput.InputMountedWhile` states when the input exists.
- `ImportInput` leaves out cancelling the dialog. Whether a cancel clears
  the input and fires `change` differs between browsers.
- The `saveFile` event payload is not modelled on its own, because it
  carries the same name, path, content and icon as the saved file.

## Findings

| source | as written | input that shows it | evidently intended | confidence | as-written member | corrected member |
|---|---|---|---|---|---|---|
| src/apps/applet-viewer/components/AppletViewerAppComponent.tsx:232-235 | the handler resets `fileInputRef.current.value`, but that ref is never attached, so the menu bar's input keeps the chosen file | choose `a.html`, then choose `a.html` again while the same input stays mounted: the second choice fires no `change` and nothing is imported. The input stays mounted on xp and win98 while the window is open, and on other themes while the window stays in front, so the case arises after a failed import or any import that does not take the window out of the front; a successful import that opens a new window in front remounts the input on other themes | clear the input that fired, so the same file can be imported again | medium, not executed | ImportInput.SameFileTwiceImportsOnce | ImportInput.ClearedInputImportsEveryPick |

=== FILE: applet_files.dfy ===
/** Import and export of applet files in the applet viewer window: an uploaded
    `.html`/`.htm`/`.app` file becomes `/Applets/<name>.app` with its leading
    emoji as icon; an open applet downloads as `<emoji> <name>.app` or as
    `<name>.html`. Reading the upload, saving it and launching a viewer are
    external; their outcomes are inputs and their requests outputs here. */
module AppletFiles {
  import opened Text
  import opened Wrappers
  import opened AppletNames
  import FileIcon

  /** A file chosen in the import dialog: its name and its text, absent when
      reading it failed. */
  datatype Upload = Upload(name: string, text: Option<string>)

  /** What the import hands to `saveFile`; the broadcast save event and the
      launched viewer carry the same name, path and content. */
  datatype SavedApplet = SavedApplet(name: string, path: string, content: string, icon: Option<string>)

  datatype ImportOutcome =
    | NoFileChosen
    | ImportFailed
    | Imported(saved: SavedApplet, launchPath: string, launchContent: string)

  const AppletsDir: string := "/Applets/"

  /** The import dialog's result: nothing without a file; a failure when the
      text could not be read or the save was refused; otherwise the saved
      applet, whose path and content the new viewer window is launched with. */
  function ImportFile(file: Option<Upload>, saveSucceeds: bool): (r: ImportOutcome)
    ensures r.NoFileChosen? <==> file.None?
    ensures r.ImportFailed? <==> file.Some? && (file.value.text.None? || !saveSucceeds)
    ensures r.Imported? ==>
      var split := ExtractEmojiIcon(file.value.name);
      && r.saved.path == AppletsDir + r.saved.name
      && EndsWith(r.saved.name, ".app")
      && r.saved.name == NormalizeImportName(split.remainingText)
      && r.saved.icon == split.emoji
      && r.saved.content == file.value.text.value
      && r.launchPath == r.saved.path && r.launchContent == r.saved.content
  {
    match file
    case None => NoFileChosen
    case Some(upload) =>
      if upload.text.None? || !saveSucceeds then ImportFailed
      else
        var split := ExtractEmojiIcon(upload.name);
        var name := NormalizeImportName(split.remainingText);
        var path := AppletsDir + name;
        Imported(SavedApplet(name, path, upload.text.value, split.emoji), path, upload.text.value)
  }

  /** A readable upload whose save succeeds is imported under the normalised
      name `n` of the text that follows its emoji. */
  lemma ImportSucceeds(name: string, content: string, emoji: Option<string>, rest: string, n: string)
    requires ExtractEmojiIcon(name) == EmojiSplit(emoji, rest)
    requires NormalizeImportName(rest) == n
    ensures ImportFile(Some(Upload(name, Some(content))), true)
         == Imported(SavedApplet(n, AppletsDir + n, content, emoji), AppletsDir + n, content)
  {}

  /** An upload named `<e> <stem>.html`, for an emoji run `e` and a stem
      starting with neither emoji nor whitespace, is saved as
      `/Applets/<stem>.app` with icon `e`. */
  lemma {:induction false} ImportEmojiNamedMarkup(e: string, stem: string, content: string)
    requires IsEmojiRun(e) && |stem| > 0 && !IsSpace(stem[0]) && !IsEmojiCodePoint(stem[0])
    ensures ExtractEmojiIcon(e + " " + stem + ".html") == EmojiSplit(Some(e), stem + ".html")
    ensures ImportFile(Some(Upload(e + " " + stem + ".html", Some(content))), true)
         == Imported(SavedApplet(stem + ".app", AppletsDir + stem + ".app", content, Some(e)),
                     AppletsDir + stem + ".app", content)
  {
    var n := stem + ".html";
    assert n[0] == stem[0];
    ConcatAssoc(e + " ", stem, ".html");
    ExtractEmojiIconUnique(e, " ", n);
    MarkupNameNormalizes(stem);
    ConcatAssoc(AppletsDir, stem, ".app");
    ImportSucceeds(e + " " + n, content, Some(e), n, stem + ".app");
  }

  /** "🎨 Notes.html" is saved as `/Applets/Notes.app` with icon 🎨. */
  lemma ImportNotesWithPalette(content: string)
    ensures ImportFile(Some(Upload("\U{1F3A8} Notes.html", Some(content))), true)
         == Imported(SavedApplet("Notes.app", "/Applets/Notes.app", content, Some("\U{1F3A8}")),
                     "/Applets/Notes.app", content)
  {
    var upload, app := "\U{1F3A8} Notes.html", "Notes.app";
    assert upload == "\U{1F3A8}" + " " + "Notes" + ".html" by {}
    assert app == "Notes" + ".app" by {}
    assert "/Applets/Notes.app" == AppletsDir + "Notes" + ".app" by {}
    assert IsEmojiRun("\U{1F3A8}") && !IsSpace('N') && !IsEmojiCodePoint('N') by {}
    ImportEmojiNamedMarkup("\U{1F3A8}", "Notes", content);
  }

  /** A `.html` upload keeps its stem and gets the `.app` extension. */
  lemma MarkupNameNormalizes(stem: string)
    ensures NormalizeImportName(stem + ".html") == stem + ".app"
  {
    var n := stem + ".html";
    assert n[|n| - 5..] == ".html";
    assert n[..|n| - 5] == stem;
  }

  /** "Draft" has neither emoji nor extension: it becomes `Draft.app` without
      an icon. */
  lemma ImportPlainName()
    ensures ExtractEmojiIcon("Draft") == EmojiSplit(None, "Draft")
    ensures NormalizeImportName("Draft") == "Draft.app"
  {
    assert !EndsWith("Draft", ".html") && !EndsWith("Draft", ".htm") && !EndsWith("Draft", ".app");
  }

  /** Only the suffix rule is idempotent: importing an imported name again
      loses a second emoji run that followed the first one's whitespace, as in
      "🎨 🎨x.app", which imports as "🎨x.app" and then as "x.app". */
  lemma ImportNotIdempotent(e: string, x: string)
    requires IsEmojiRun(e) && |x| > 0 && !IsSpace(x[0]) && !IsEmojiCodePoint(x[0])
    ensures ExtractEmojiIcon(e + " " + (e + x)).remainingText == e + x
    ensures ExtractEmojiIcon(e + x).remainingText == x
  {
    assert !IsSpace(e[0]);
    assert (e + x)[0] == e[0];
    ExtractEmojiIconUnique(e, " ", e + x);
    assert e + x == e + "" + x;
    ExtractEmojiIconUnique(e, "", x);
  }

  /** An entry of the `/Applets` file listing: its path and its icon, "" when
      it has none. */
  datatype FileEntry = FileEntry(path: string, icon: string)

  /** `files.find(f => f.path === path)`: the index of the first entry with
      that path. */
  function FindByPath(files: seq<FileEntry>, path: string): (r: Option<nat>)
    ensures r.None? <==> forall i :: 0 <= i < |files| ==> files[i].path != path
    ensures r.Some? ==> r.value < |files| && files[r.value].path == path
    ensures r.Some? ==> forall i :: 0 <= i < r.value ==> files[i].path != path
    decreases |files|
  {
    if |files| == 0 then None
    else if files[0].path == path then Some(0)
    else
      match FindByPath(files[1..], path)
      case None => None
      case Some(k) => Some(k + 1)
  }

  /** The icon of the open applet's file entry, "" when there is none. */
  function IconOf(files: seq<FileEntry>, path: string): string {
    match FindByPath(files, path)
    case None => ""
    case Some(k) => files[k].icon
  }

  const PackageEmoji: string := "\U{1F4E6}"

  /** The emoji written in front of a package export's name: the file's icon
      when it passes the emoji-icon test, otherwise 📦. */
  function EmojiPrefix(icon: string): (r: string)
    ensures FileIcon.IsEmojiIcon(icon) ==> r == icon
    ensures !FileIcon.IsEmojiIcon(icon) ==> r == PackageEmoji
    ensures r != ""
  {
    if FileIcon.IsEmojiIcon(icon) then icon else PackageEmoji
  }

  /** A client-side download: its file name and the bytes written. */
  datatype Download = Download(fileName: string, content: string)

  /** "Export As > ryOS App": nothing when the content is blank, otherwise the
      raw content under `<prefix> <base>.app`. */
  function ExportAsApp(path: string, content: string, files: seq<FileEntry>): (r: Option<Download>)
    ensures r.None? <==> IsBlank(content)
    ensures r.Some? ==> r.value.content == content
    ensures r.Some? ==>
      r.value.fileName == EmojiPrefix(IconOf(files, path)) + " " + DisplayName(path) + ".app"
  {
    // `content.trim().length > 0`, see TrimEmptyIffBlank
    if IsBlank(content) then None
    else
      var prefix := EmojiPrefix(IconOf(files, path));
      Some(Download(prefix + " " + DisplayName(path) + ".app", content))
  }

  /** "Export As > HTML": the same base name, no prefix, `.html` extension. */
  function ExportAsHtml(path: string, content: string): (r: Option<Download>)
    ensures r.None? <==> IsBlank(content)
    ensures r.Some? ==> r.value.content == content && r.value.fileName == DisplayName(path) + ".html"
  {
    // `content.trim().length > 0`, see TrimEmptyIffBlank
    if IsBlank(content) then None
    else Some(Download(DisplayName(path) + ".html", content))
  }

  /** Both exports derive the same base name: the HTML name is the package
      name without its emoji prefix and with the other extension. */
  lemma ExportsShareBaseName(path: string, content: string, files: seq<FileEntry>)
    requires !IsBlank(content)
    ensures
      var app := ExportAsApp(path, content, files).value.fileName;
      var html := ExportAsHtml(path, content).value.fileName;
      var prefix := EmojiPrefix(IconOf(files, path));
      app == prefix + " " + html[..|html| - 5] + ".app"
  {}

  /** The package export of `/Applets/<b>.app` whose entry carries an emoji
      icon is named `<icon> <b>.app`. */
  lemma ExportAppWithEmoji(b: string, content: string, files: seq<FileEntry>, icon: string)
    requires b != "" && '/' !in b && !IsBlank(content)
    requires IconOf(files, AppletsDir + b + ".app") == icon && FileIcon.IsEmojiIcon(icon)
    ensures ExportAsApp(AppletsDir + b + ".app", content, files) == Some(Download(icon + " " + b + ".app", content))
  {
    AppletDisplayName(b);
  }

  lemma ConcatAssoc(x: string, y: string, z: string)
    ensures x + y + z == x + (y + z)
  {}

  /** The last segment of `/Applets/<b>.app` is `<b>.app`. */
  lemma AppletPathSegment(b: string)
    requires '/' !in b
    ensures LastSegment(AppletsDir + b + ".app") == b + ".app"
  {
    var path := AppletsDir + b + ".app";
    var n := b + ".app";
    assert path[|AppletsDir| - 1] == '/';
    assert path[|AppletsDir|..] == n;
    forall i | |AppletsDir| <= i < |path| ensures path[i] != '/' {
      assert path[i] == n[i - |AppletsDir|];
      if i - |AppletsDir| < |b| {
        assert n[i - |AppletsDir|] == b[i - |AppletsDir|];
      }
    }
    var r := LastSegment(path);
    forall j | 0 <= j < |r| ensures r[j] != path[|AppletsDir| - 1] {}
    assert r == path[|AppletsDir|..];
  }

  /** `<b>.app` loses exactly its `.app`. */
  lemma AppExtensionStripped(b: string)
    ensures StripAppletExtension(b + ".app") == b
  {
    var n := b + ".app";
    assert n[|n| - 4..] == ".app";
    assert n[|n| - 1] == 'p';
    assert Lower(n[|n| - 4..]) == ".app";
    assert !EndsWithIgnoreCase(n, ".html");
    assert n[..|n| - 4] == b;
  }

  /** The file `/Applets/<b>.app` is displayed and exported as `b`. */
  lemma AppletDisplayName(b: string)
    requires b != "" && '/' !in b
    ensures DisplayName(AppletsDir + b + ".app") == b
  {
    AppletPathSegment(b);
    AppExtensionStripped(b);
  }

  /** A name already ending in `.app` is kept. */
  lemma AppNameNormalizes(n: string)
    requires EndsWith(n, ".app")
    ensures NormalizeImportName(n) == n
  {}

  /** The prefix is an emoji run, as the import's pattern needs, for an icon
      an import produced, for no icon, and for every icon the export's emoji
      test rejects (a path, a URL, a long text), which exports as 📦. */
  lemma PrefixIsEmojiRun(icon: string)
    requires icon == "" || IsEmojiRun(icon) || !FileIcon.IsEmojiIcon(icon)
    ensures IsEmojiRun(EmojiPrefix(icon))
  {
    if !FileIcon.IsEmojiIcon(icon) {
      assert EmojiPrefix(icon) == PackageEmoji;
    }
  }

  /** Exporting a package and importing the download again restores the path
      and the icon, provided the base name is a plain name (no `/`, not
      starting with whitespace) and the prefix is an emoji run, which
      `PrefixIsEmojiRun` shows for every icon an import produces and every
      icon exported as 📦. */
  lemma ExportThenImportRoundTrip(b: string, content: string, files: seq<FileEntry>, prefix: string)
    requires b != "" && '/' !in b && !IsSpace(b[0])
    requires !IsBlank(content)
    requires prefix == EmojiPrefix(IconOf(files, AppletsDir + b + ".app")) && IsEmojiRun(prefix)
    ensures ExportAsApp(AppletsDir + b + ".app", content, files)
         == Some(Download(prefix + " " + b + ".app", content))
    ensures ImportFile(Some(Upload(prefix + " " + b + ".app", Some(content))), true)
         == Imported(SavedApplet(b + ".app", AppletsDir + b + ".app", content, Some(prefix)),
                     AppletsDir + b + ".app", content)
  {
    var icon := IconOf(files, AppletsDir + b + ".app");
    var rest := b + ".app";
    assert DisplayName(AppletsDir + b + ".app") == b by {
      AppletDisplayName(b);
    }
    assert ExtractEmojiIcon(prefix + " " + rest) == EmojiSplit(Some(prefix), rest) by {
      assert rest[0] == b[0];
      ExtractEmojiIconUnique(prefix, " ", rest);
    }
    assert NormalizeImportName(rest) == rest by {
      assert EndsWith(rest, ".app");
      AppNameNormalizes(rest);
    }
    ConcatAssoc(prefix + " ", b, ".app");
    ConcatAssoc(AppletsDir, b, ".app");
    ImportSucceeds(prefix + " " + rest, content, Some(prefix), rest, rest);
  }

  /** ❤️ as stored: a heart followed by the emoji variation selector U+FE0F. */
  const HeartIcon: string := "\U{2764}\U{FE0F}"

  lemma HeartIconIsEmojiIcon()
    ensures FileIcon.IsEmojiIcon(HeartIcon) && EmojiPrefix(HeartIcon) == HeartIcon
  {
    assert HeartIcon == ['\U{2764}'] + ['\U{FE0F}'];
  }

  /** The import's pattern stops before the variation selector. */
  lemma HeartSplit(rest: string)
    ensures ExtractEmojiIcon(HeartIcon + rest) == EmojiSplit(Some("\U{2764}"), "\U{FE0F}" + rest)
  {
    var n := "\U{FE0F}" + rest;
    assert HeartIcon + rest == "\U{2764}" + "" + n;
    assert n[0] == '\U{FE0F}';
    ExtractEmojiIconUnique("\U{2764}", "", n);
  }

  /** Importing `❤️<rest>` keeps U+FE0F at the head of the name. */
  lemma HeartImport(rest: string, content: string)
    requires EndsWith(rest, ".app")
    ensures var n := "\U{FE0F}" + rest;
      ImportFile(Some(Upload(HeartIcon + rest, Some(content))), true)
         == Imported(SavedApplet(n, AppletsDir + n, content, Some("\U{2764}")), AppletsDir + n, content)
  {
    var n := "\U{FE0F}" + rest;
    HeartSplit(rest);
    assert EndsWith(n, ".app") by {
      assert n[|n| - 4..] == rest[|rest| - 4..];
    }
    AppNameNormalizes(n);
    ImportSucceeds(HeartIcon + rest, content, Some("\U{2764}"), n, n);
  }

  /** The package export of an applet whose icon is ❤️ keeps the whole icon
      as its prefix: it passes the export's emoji test. */
  lemma HeartExport(b: string, content: string, files: seq<FileEntry>)
    requires b != "" && '/' !in b && !IsBlank(content)
    requires IconOf(files, AppletsDir + b + ".app") == HeartIcon
    ensures ExportAsApp(AppletsDir + b + ".app", content, files)
         == Some(Download(HeartIcon + " " + b + ".app", content))
  {
    HeartIconIsEmojiIcon();
    AppletDisplayName(b);
  }

  /** The round trip needs its icon precondition: the export names the
      download `❤️ <b>.app` (`HeartExport`), but the import's pattern has no
      variation selectors, so it takes the bare heart as the icon and leaves
      U+FE0F at the head of the name. The applet comes back under another
      path, `/Applets/\u{FE0F} <b>.app`, with another icon. */
  lemma VariationSelectorIconBreaksRoundTrip(b: string, content: string)
    ensures var n := "\U{FE0F} " + b + ".app";
      && ImportFile(Some(Upload(HeartIcon + " " + b + ".app", Some(content))), true)
         == Imported(SavedApplet(n, AppletsDir + n, content, Some("\U{2764}")), AppletsDir + n, content)
      && n != b + ".app"
  {
    var rest := " " + b + ".app";
    var n := "\U{FE0F} " + b + ".app";
    assert HeartIcon + " " + b + ".app" == HeartIcon + rest by {
      ConcatAssoc(HeartIcon + " ", b, ".app");
      ConcatAssoc(HeartIcon, " ", b + ".app");
      ConcatAssoc(" ", b, ".app");
    }
    assert n == "\U{FE0F}" + rest by {
      ConcatAssoc("\U{FE0F}" + " ", b, ".app");
      ConcatAssoc("\U{FE0F}", " ", b + ".app");
      ConcatAssoc(" ", b, ".app");
    }
    assert EndsWith(rest, ".app") by {
      assert rest[|rest| - 4..] == ".app";
    }
    HeartImport(rest, content);
    assert |n| > |b + ".app"|;
  }

  /** The window title of an imported applet `/Applets/<b>.app` with content
      is `b`, even when `b` is empty (then there is no "Untitled" default). */
  lemma ImportedAppletTitle(b: string, content: string)
    requires '/' !in b && !IsBlank(content)
    ensures WindowTitle(AppletsDir + b + ".app", content) == b
  {
    AppletPathSegment(b);
    AppExtensionStripped(b);
  }

  /** Exporting as HTML and importing the download gives the same applet path
      back, without an icon, when the base name does not start with an emoji
      or whitespace. */
  lemma ExportHtmlThenImportRoundTrip(b: string, content: string)
    requires b != "" && '/' !in b && !IsSpace(b[0]) && !IsEmojiCodePoint(b[0])
    requires !IsBlank(content)
    ensures ExportAsHtml(AppletsDir + b + ".app", content) == Some(Download(b + ".html", content))
    ensures ImportFile(Some(Upload(b + ".html", Some(content))), true)
         == Imported(SavedApplet(b + ".app", AppletsDir + b + ".app", content, None),
                     AppletsDir + b + ".app", content)
  {
    assert DisplayName(AppletsDir + b + ".app") == b by {
      AppletDisplayName(b);
    }
    var n := b + ".html";
    assert ExtractEmojiIcon(n) == EmojiSplit(None, n) by {
      assert n[0] == b[0];
    }
    assert NormalizeImportName(n) == b + ".app" by {
      MarkupNameNormalizes(b);
    }
    ConcatAssoc(AppletsDir, b, ".app");
    ImportSucceeds(n, content, None, n, b + ".app");
  }
}

=== FILE: applet_names.dfy ===
/** File-name rules of the applet viewer: the leading-emoji split of an
    uploaded name, the `.app` suffix rule of the import, and the display name
    derived from a path (window title, export names, Window-menu labels). */
module AppletNames {
  import opened Text
  import opened Wrappers

  /** The code points of the character class in the import's emoji pattern
      (AppletViewerAppComponent.tsx line 150). Several listed ranges overlap;
      their union is what counts. */
  predicate IsEmojiCodePoint(c: char) {
    var n := c as int;
    || (0x1F300 <= n <= 0x1F9FF) || (0x2600 <= n <= 0x26FF) || (0x2700 <= n <= 0x27BF)
    || (0x1F000 <= n <= 0x1F02F) || (0x1F0A0 <= n <= 0x1F0FF) || (0x1F100 <= n <= 0x1F64F)
    || (0x1F680 <= n <= 0x1F6FF) || (0x1F900 <= n <= 0x1F9FF) || (0x1FA00 <= n <= 0x1FA6F)
    || (0x1FA70 <= n <= 0x1FAFF) || (0x2300 <= n <= 0x23FF)
    || n == 0x2B50 || n == 0x2B55 || n == 0x3030 || n == 0x303D || n == 0x3297 || n == 0x3299
  }

  predicate IsEmojiRun(s: string) {
    |s| > 0 && forall i :: 0 <= i < |s| ==> IsEmojiCodePoint(s[i])
  }

  /** Length of the longest prefix of `s` whose characters all satisfy `p`:
      what a greedy `[...]+` or `\s*` consumes at the start of `s`. */
  function LeadingRun(s: string, p: char -> bool): (n: nat)
    ensures n <= |s|
    ensures forall i :: 0 <= i < n ==> p(s[i])
    ensures n < |s| ==> !p(s[n])
    decreases |s|
  {
    if |s| == 0 || !p(s[0]) then 0 else 1 + LeadingRun(s[1..], p)
  }

  /** Result of `extractEmojiIcon`: the emoji (absent when the pattern does not
      match) and the text left after it and the whitespace that follows it. */
  datatype EmojiSplit = EmojiSplit(emoji: Option<string>, remainingText: string)

  /** Match of `^([emoji]+)\s*` at the start of `text`. */
  function ExtractEmojiIcon(text: string): (r: EmojiSplit)
    ensures r.emoji.None? <==> (|text| == 0 || !IsEmojiCodePoint(text[0]))
    ensures r.emoji.None? ==> r.remainingText == text
    ensures r.emoji.Some? ==>
      var e, rest := r.emoji.value, r.remainingText;
      && IsEmojiRun(e)
      && |e| + |rest| <= |text|
      && StartsWith(text, e)
      && EndsWith(text, rest)
      // between the emoji and the rest there is only whitespace
      && (forall i :: |e| <= i < |text| - |rest| ==> IsSpace(text[i]))
      // the emoji run is maximal
      && (|e| < |text| ==> !IsEmojiCodePoint(text[|e|]))
      // and so is the whitespace run
      && (|rest| > 0 ==> !IsSpace(rest[0]))
  {
    var e := LeadingRun(text, IsEmojiCodePoint);
    if e == 0 then EmojiSplit(None, text)
    else
      var w := LeadingRun(text[e..], IsSpace);
      assert forall i :: e <= i < e + w ==> text[i] == text[e..][i - e];
      EmojiSplit(Some(text[..e]), text[e + w..])
  }

  /** The split is the only one with the properties `ExtractEmojiIcon` promises:
      any emoji run followed by whitespace and a rest that starts with neither,
      which together make up `text`, is the one the function returns. */
  lemma {:induction false} ExtractEmojiIconUnique(e: string, gap: string, rest: string)
    requires IsEmojiRun(e) && IsBlank(gap)
    requires |rest| > 0 ==> !IsSpace(rest[0])
    requires |gap| == 0 && |rest| > 0 ==> !IsEmojiCodePoint(rest[0])
    requires |gap| > 0 ==> !IsEmojiCodePoint(gap[0])
    ensures ExtractEmojiIcon(e + gap + rest) == EmojiSplit(Some(e), rest)
  {
    var text := e + gap + rest;
    assert text[0] == e[0];
    forall i | 0 <= i < |e| ensures IsEmojiCodePoint(text[i]) {
      assert text[i] == e[i];
    }
    forall i | |e| <= i < |e| + |gap| ensures IsSpace(text[i]) {
      assert text[i] == gap[i - |e|];
    }
    if |gap| > 0 {
      assert text[|e|] == gap[0];
    } else if |rest| > 0 {
      assert text[|e|] == rest[0];
    }
    if |rest| > 0 {
      assert text[|e| + |gap|] == rest[0];
    }
    assert text[..|e|] == e;
    assert text[|e| + |gap|..] == rest;
  }

  /** `name.replace(/\.(html|htm)$/i, replacement)`. */
  function ReplaceMarkupSuffix(name: string, replacement: string): string {
    if EndsWithIgnoreCase(name, ".html") then name[..|name| - 5] + replacement
    else if EndsWithIgnoreCase(name, ".htm") then name[..|name| - 4] + replacement
    else name
  }

  /** `name.replace(/\.(html|app)$/i, "")`: one known extension removed. */
  function StripAppletExtension(name: string): (r: string)
    ensures |r| <= |name| && r == name[..|r|]
    ensures r == name <==> !(EndsWithIgnoreCase(name, ".html") || EndsWithIgnoreCase(name, ".app"))
    ensures r != name ==> Lower(name[|r|..]) == ".html" || Lower(name[|r|..]) == ".app"
  {
    if EndsWithIgnoreCase(name, ".html") then name[..|name| - 5]
    else if EndsWithIgnoreCase(name, ".app") then name[..|name| - 4]
    else name
  }

  /** On a name with a lower-case `.html` or `.htm` ending, the
      case-insensitive replacement cuts exactly that ending. */
  lemma MarkupSuffixReplaced(name: string, replacement: string)
    requires EndsWith(name, ".html") || EndsWith(name, ".htm")
    ensures EndsWith(name, ".html") ==> ReplaceMarkupSuffix(name, replacement) == name[..|name| - 5] + replacement
    ensures !EndsWith(name, ".html") ==> ReplaceMarkupSuffix(name, replacement) == name[..|name| - 4] + replacement
    ensures !EndsWith(name, ".app")
  {
    if EndsWith(name, ".html") {
      var t := name[|name| - 5..];
      assert t == ".html";
      assert name[|name| - 1] == 'l';
      assert Lower(t) == t;
    } else {
      var t := name[|name| - 4..];
      assert t == ".htm";
      assert name[|name| - 1] == 'm';
      assert Lower(t) == t;
      assert Lower(name)[|name| - 1] == 'm';
      if |name| >= 5 {
        assert Lower(name[|name| - 5..])[4] == 'm';
      }
    }
  }

  /** The `.app` suffix rule of the import (case-sensitive tests, a
      case-insensitive replacement). */
  function NormalizeImportName(name: string): (r: string)
    ensures EndsWith(r, ".app")
    ensures EndsWith(name, ".app") ==> r == name
    ensures EndsWith(name, ".html") ==> r == name[..|name| - 5] + ".app"
    ensures EndsWith(name, ".htm") ==> r == name[..|name| - 4] + ".app"
    ensures !EndsWith(name, ".html") && !EndsWith(name, ".htm") && !EndsWith(name, ".app") ==>
              r == name + ".app"
  {
    if EndsWith(name, ".html") || EndsWith(name, ".htm") then
      MarkupSuffixReplaced(name, ".app");
      ReplaceMarkupSuffix(name, ".app")
    else if !EndsWith(name, ".app") then name + ".app"
    else name
  }

  /** Normalising twice is normalising once. */
  lemma NormalizeImportNameIdempotent(name: string)
    ensures NormalizeImportName(NormalizeImportName(name)) == NormalizeImportName(name)
  {
    var r := NormalizeImportName(name);
    assert r[|r| - 1] == 'p';
    assert !EndsWith(r, ".html") && !EndsWith(r, ".htm");
  }

  /** The upper-case `X.HTML` is not recognised: the tests are case-sensitive. */
  lemma UpperCaseMarkupGetsAppended()
    ensures NormalizeImportName("X.HTML") == "X.HTML.app"
  {
    assert !EndsWith("X.HTML", ".html") && !EndsWith("X.HTML", ".htm");
    assert !EndsWith("X.HTML", ".app");
  }

  /** `getFileName`: the last path segment minus one `.html`/`.app`. */
  function BaseName(path: string): (r: string)
    ensures '/' !in r
    ensures StartsWith(LastSegment(path), r)
  {
    StripAppletExtension(LastSegment(path))
  }

  /** The base name used by both exports and by the Window menu: `BaseName`,
      or "Untitled" when the path is empty or the base name is. */
  function DisplayName(path: string): (r: string)
    ensures r != "" && '/' !in r
    ensures r == BaseName(path) || r == "Untitled"
    ensures r != "Untitled" ==> path != "" && r == BaseName(path)
    ensures path != "" && BaseName(path) != "" ==> r == BaseName(path)
  {
    UntitledIsAName();
    if path == "" then Untitled
    else
      var b := BaseName(path);
      if b == "" then Untitled else b
  }

  const Untitled: string := "Untitled"

  lemma UntitledIsAName()
    ensures Untitled != "" && '/' !in Untitled
  {}

  /** The window title: the file name when there is content and a path,
      otherwise the application's name. */
  function WindowTitle(path: string, content: string): (r: string)
    ensures !IsBlank(content) && path != "" ==> r == BaseName(path)
    ensures IsBlank(content) || path == "" ==> r == "Applet Viewer"
  {
    // `content.trim().length > 0`, see TrimEmptyIffBlank
    if !IsBlank(content) && path != "" then BaseName(path) else "Applet Viewer"
  }

  /** Unlike `DisplayName`, the title has no "Untitled" default. */
  lemma WindowTitleCanBeEmpty()
    ensures WindowTitle("/Applets/.app", "x") == ""
  {
    assert LastSegment("/Applets/.app") == ".app" by {
      assert AfterLast("/Applets/.app", '/') == ".app";
    }
    assert EndsWithIgnoreCase(".app", ".app");
    assert !EndsWithIgnoreCase(".app", ".html");
    assert !IsSpace("x"[0]);
  }
}

=== FILE: file_icon.dfy ===
/** The decisions of the finder's file icon: whether an icon string is an emoji
    glyph or a path, whether a name is a raster image, which themed icon path
    to use, what to render, and which handler a click or double-click calls.

    The optional `icon` property is modelled as a string in which "" stands for
    an absent icon: every use of it in the component is a truthiness test, for
    which `undefined` and "" behave alike. */
module FileIcon {
  import opened Text
  import opened Wrappers

  /** `isEmojiIcon`: not empty, not a path or URL, and at most ten UTF-16
      code units long. */
  predicate IsEmojiIcon(icon: string) {
    icon != "" && !StartsWith(icon, "/") && !StartsWith(icon, "http") && Utf16Len(icon) <= 10
  }

  /** A path or URL is never taken for an emoji, however short. */
  lemma PathIsNeverEmoji(icon: string)
    requires StartsWith(icon, "/") || StartsWith(icon, "http")
    ensures !IsEmojiIcon(icon)
  {}

  /** Any non-path string of at most five code points is short enough; one of
      more than ten code points never is. */
  lemma EmojiIconLengthBounds(icon: string)
    requires icon != "" && !StartsWith(icon, "/") && !StartsWith(icon, "http")
    ensures |icon| <= 5 ==> IsEmojiIcon(icon)
    ensures |icon| > 10 ==> !IsEmojiIcon(icon)
  {}

  /** The bound counts UTF-16 units: six astral-plane emoji are six code points
      but twelve units, so they are not an emoji icon. */
  lemma {:induction false} SixAstralEmojiAreTooLong()
    ensures !IsEmojiIcon("\U{1F3A8}\U{1F3A8}\U{1F3A8}\U{1F3A8}\U{1F3A8}\U{1F3A8}")
  {
    var s := "\U{1F3A8}\U{1F3A8}\U{1F3A8}\U{1F3A8}\U{1F3A8}\U{1F3A8}";
    assert s[1..][1..][1..][1..][1..][1..] == [];
    assert Utf16Len(s) == 12;
  }

  const ImageExtensions: seq<string> := ["jpg", "jpeg", "png", "gif", "webp", "bmp"]

  /** `isImage`: the lower-cased text after the last `.` (the whole name when
      there is none) is a known raster extension. */
  predicate IsImage(name: string) {
    Lower(AfterLast(name, '.')) in ImageExtensions
  }

  /** Reference definition: the lower-cased name ends with `.ext`, or is `ext`
      itself, for a known extension `ext`. */
  predicate HasImageExtension(name: string) {
    exists e :: e in ImageExtensions && (Lower(name) == e || EndsWith(Lower(name), "." + e))
  }

  lemma LowerSuffix(s: string, k: nat)
    requires k <= |s|
    ensures Lower(s[k..]) == Lower(s)[k..]
  {}

  /** When position `k` follows a separator (or is the start) and no separator
      comes after it, the text after the last separator starts at `k`. */
  lemma AfterLastAt(s: string, sep: char, k: nat)
    requires k <= |s| && (k == 0 || s[k - 1] == sep)
    requires forall i :: k <= i < |s| ==> s[i] != sep
    ensures AfterLast(s, sep) == s[k..]
  {
    var r := AfterLast(s, sep);
    if k > 0 {
      // r holds no separator, so it cannot reach back to position k - 1
      forall j | 0 <= j < |r| ensures r[j] != s[k - 1] {}
    }
  }

  lemma IsImageHasExtension(name: string)
    requires IsImage(name)
    ensures HasImageExtension(name)
  {
    var ext := AfterLast(name, '.');
    var k := |name| - |ext|;
    LowerSuffix(name, k);
    var e := Lower(ext);
    if k == 0 {
      assert Lower(name) == e;
    } else {
      assert Lower(name)[k - 1] == '.';
      assert Lower(name)[k - 1..] == "." + e;
      assert EndsWith(Lower(name), "." + e);
    }
    assert e in ImageExtensions && (Lower(name) == e || EndsWith(Lower(name), "." + e));
  }

  lemma ExtensionIsImage(name: string, e: string)
    requires e in ImageExtensions
    requires Lower(name) == e || EndsWith(Lower(name), "." + e)
    ensures IsImage(name)
  {
    var ln := Lower(name);
    var k: nat;
    if ln == e {
      k := 0;
    } else {
      k := |name| - |e|;
      assert ln[k - 1..] == "." + e;
      assert ln[k - 1] == '.';
      assert name[k - 1] == '.';
    }
    assert ln[k..] == e;
    assert forall j :: 0 <= j < |e| ==> e[j] != '.';
    forall i | k <= i < |name| ensures name[i] != '.' {
      assert ln[i] == e[i - k];
    }
    AfterLastAt(name, '.', k);
    LowerSuffix(name, k);
  }

  lemma IsImageMatchesExtension(name: string)
    ensures IsImage(name) <==> HasImageExtension(name)
  {
    if IsImage(name) {
      IsImageHasExtension(name);
    }
    if HasImageExtension(name) {
      var e :| e in ImageExtensions && (Lower(name) == e || EndsWith(Lower(name), "." + e));
      ExtensionIsImage(name, e);
    }
  }

  lemma UpperCaseBareNameIsImage()
    ensures IsImage("PNG")
  {
    AfterLastAt("PNG", '.', 0);
    assert Lower("PNG") == "png";
  }

  /** `getIconPath`, in priority order. */
  function IconPath(icon: string, isDirectory: bool, name: string): (r: string)
    ensures icon != "" ==> r == icon
    ensures icon == "" && isDirectory ==> r == "/icons/directory.png"
    ensures icon == "" && !isDirectory && (EndsWith(name, ".txt") || EndsWith(name, ".md")) ==>
              r == "/icons/file-text.png"
    ensures icon == "" && !isDirectory && !EndsWith(name, ".txt") && !EndsWith(name, ".md") ==>
              r == "/icons/file.png"
    ensures r != ""
  {
    if icon != "" then icon
    else if isDirectory then "/icons/directory.png"
    else if EndsWith(name, ".txt") || EndsWith(name, ".md") then "/icons/file-text.png"
    else "/icons/file.png"
  }

  /** An image source: a string the component was given (a `contentUrl` or
      string content) or an object URL it created itself. Object URLs are
      modelled by a fresh number each. */
  datatype ImageSource = Given(url: string) | ObjectUrl(id: nat)

  /** What `renderIcon` draws. */
  datatype Rendered = Thumbnail(src: ImageSource) | EmojiGlyph(glyph: string) | ThemedIcon(path: string)

  /** The truthiness test `imgSrc &&`: an empty string counts as no source. */
  predicate HasSource(imgSrc: Option<ImageSource>) {
    imgSrc.Some? && imgSrc.value != Given("")
  }

  function Render(name: string, isDirectory: bool, icon: string, imgSrc: Option<ImageSource>,
                  fallbackToIcon: bool): (r: Rendered)
    ensures r.Thumbnail? <==> IsImage(name) && imgSrc.Some? && imgSrc.value != Given("") && !fallbackToIcon
    ensures r.Thumbnail? ==> r.src == imgSrc.value && r.src != Given("")
    ensures r.EmojiGlyph? <==> !r.Thumbnail? && IsEmojiIcon(icon)
    ensures r.EmojiGlyph? ==> r.glyph == icon
    ensures r.ThemedIcon? ==> r.path == IconPath(icon, isDirectory, name) && !IsEmojiIcon(icon)
  {
    if IsImage(name) && HasSource(imgSrc) && !fallbackToIcon then Thumbnail(imgSrc.value)
    else if icon != "" && IsEmojiIcon(icon) then EmojiGlyph(icon)
    else ThemedIcon(IconPath(icon, isDirectory, name))
  }

  /** A themed icon drawn for a non-empty icon string is always a path-like or
      long string: the icon itself. */
  lemma ThemedIconShowsNonEmojiIcon(name: string, isDirectory: bool, icon: string,
                                   imgSrc: Option<ImageSource>, fallback: bool)
    requires icon != "" && Render(name, isDirectory, icon, imgSrc, fallback).ThemedIcon?
    ensures Render(name, isDirectory, icon, imgSrc, fallback).path == icon
    ensures StartsWith(icon, "/") || StartsWith(icon, "http") || Utf16Len(icon) > 10
  {}

  /** The two handlers a file icon can be given. */
  datatype Handler = OnClick | OnDoubleClick

  /** `handleClick`: the handlers called, in order, for one click. On a touch
      device a tap opens the entry when an open handler is supplied; otherwise
      the click handler (if any) is called. */
  function HandleClick(isTouch: bool, hasOnClick: bool, hasOnDoubleClick: bool): (calls: seq<Handler>)
    ensures |calls| <= 1
    ensures OnDoubleClick in calls <==> isTouch && hasOnDoubleClick
    ensures OnClick in calls <==> hasOnClick && !(isTouch && hasOnDoubleClick)
  {
    if isTouch && hasOnDoubleClick then [OnDoubleClick]
    else if hasOnClick then [OnClick]
    else []
  }

  /** `handleDoubleClick`: only non-touch devices react to a double-click. */
  function HandleDoubleClick(isTouch: bool, hasOnDoubleClick: bool): (calls: seq<Handler>)
    ensures |calls| <= 1 && OnClick !in calls
    ensures OnDoubleClick in calls <==> !isTouch && hasOnDoubleClick
  {
    if !isTouch && hasOnDoubleClick then [OnDoubleClick] else []
  }

  /** On a touch device a click followed by a double-click calls one handler
      at most, and with an open handler the gesture opens the entry exactly
      once and never calls the click handler; on a non-touch device a click
      never opens the entry. */
  lemma ClickPathsAreIndependent(isTouch: bool, hasOnClick: bool, hasOnDoubleClick: bool)
    ensures isTouch ==>
      |HandleClick(isTouch, hasOnClick, hasOnDoubleClick) + HandleDoubleClick(isTouch, hasOnDoubleClick)| <= 1
    ensures isTouch && hasOnDoubleClick ==>
      HandleClick(isTouch, hasOnClick, hasOnDoubleClick) + HandleDoubleClick(isTouch, hasOnDoubleClick) == [OnDoubleClick]
    ensures !isTouch ==> OnDoubleClick !in HandleClick(isTouch, hasOnClick, hasOnDoubleClick)
  {}
}

=== FILE: font_injection.dfy ===
/** The macOS X theme's font fix for applet content (`ensureMacFonts`): a
    stylesheet link and a font-override style element are spliced into the
    applet's HTML before the last `</head>`, else after the first `<head…>`
    tag, else inside a new head after the first `<html…>` tag, else the
    content is wrapped into a fresh document. The search for `</head>` runs
    on a lower-cased copy and the tag searches are case-insensitive; since the
    model lower-cases ASCII only, positions in the copy are positions in the
    original. */
module FontInjection {
  import opened Text
  import opened Wrappers

  /** The stylesheet link that makes the bundled fonts available. */
  const Preload: string := "<link rel=\"stylesheet\" href=\"/fonts/fonts.css\">"

  /** The style element forcing the Lucida Grande font stack; its CSS rules
      are represented by a placeholder, nothing depends on their text. */
  const FontStyle: string := "<style data-ryos-applet-font-fix>/* font stack overrides */</style>"

  /** What every tier inserts. */
  const Block: string := Preload + FontStyle

  const HeadWithBlock: string := "<head>" + Block + "</head>"
  const WrapPrefix: string := "<!DOCTYPE html><html>" + HeadWithBlock + "<body>"
  const WrapSuffix: string := "</body></html>"

  /** `pat` (in lower case) occurs at position `i` of `s`, ignoring ASCII case. */
  predicate MatchesAt(s: string, i: nat, pat: string) {
    i + |pat| <= |s| && Lower(s[i..i + |pat|]) == pat
  }

  ghost predicate HasMatch(s: string, pat: string) {
    exists i: nat :: MatchesAt(s, i, pat)
  }

  /** The last start position `<= k` of a case-insensitive match. */
  function LastMatchUpTo(s: string, pat: string, k: int): (r: Option<nat>)
    ensures r.Some? ==> r.value <= k && MatchesAt(s, r.value, pat)
    ensures r.Some? ==> forall j: nat :: r.value < j <= k ==> !MatchesAt(s, j, pat)
    ensures r.None? ==> forall j: nat :: j <= k ==> !MatchesAt(s, j, pat)
    decreases k + 1
  {
    if k < 0 then None
    else if MatchesAt(s, k, pat) then Some(k)
    else LastMatchUpTo(s, pat, k - 1)
  }

  /** `s.toLowerCase().lastIndexOf(pat)`, absent for -1. */
  function LastIndexOfIgnoreCase(s: string, pat: string): (r: Option<nat>)
    ensures r.Some? <==> HasMatch(s, pat)
    ensures r.Some? ==> MatchesAt(s, r.value, pat)
    ensures r.Some? ==> forall j: nat :: r.value < j ==> !MatchesAt(s, j, pat)
  {
    LastMatchUpTo(s, pat, |s| - |pat|)
  }

  /** `/<pat[^>]*>/i` matches at `j`: the prefix occurs there and some `>`
      follows it (the `[^>]*` then runs up to the first such `>`). */
  predicate TagAt(s: string, j: nat, pat: string) {
    MatchesAt(s, j, pat) && '>' in s[j + |pat|..]
  }

  ghost predicate HasTag(s: string, pat: string) {
    exists j: nat :: TagAt(s, j, pat)
  }

  /** The leftmost match of `/<pat[^>]*>/i` starts at `start` and ends just
      before `end`. */
  predicate LeftmostTag(s: string, pat: string, start: nat, end: nat) {
    && TagAt(s, start, pat)
    && (forall j: nat :: j < start ==> !TagAt(s, j, pat))
    && start + |pat| < end <= |s|
    && s[end - 1] == '>'
    && (forall k :: start + |pat| <= k < end - 1 ==> s[k] != '>')
  }

  /** The first `>` at or after `from`. */
  function IndexOfGt(s: string, from: nat): (r: Option<nat>)
    requires from <= |s|
    ensures r.Some? ==> from <= r.value < |s| && s[r.value] == '>'
    ensures r.Some? ==> forall k :: from <= k < r.value ==> s[k] != '>'
    ensures r.None? <==> '>' !in s[from..]
    decreases |s| - from
  {
    if from == |s| then None
    else if s[from] == '>' then Some(from)
    else
      var r := IndexOfGt(s, from + 1);
      assert s[from..] == [s[from]] + s[from + 1..];
      r
  }

  /** Searches for the leftmost tag from position `from` on. */
  function FindTagFrom(s: string, pat: string, from: nat): (r: Option<(nat, nat)>)
    requires forall j: nat :: j < from ==> !TagAt(s, j, pat)
    ensures r.Some? ==> LeftmostTag(s, pat, r.value.0, r.value.1)
    ensures r.None? ==> !HasTag(s, pat)
    decreases |s| - from
  {
    if from + |pat| > |s| then None
    else if MatchesAt(s, from, pat) && IndexOfGt(s, from + |pat|).Some? then
      Some((from, IndexOfGt(s, from + |pat|).value + 1))
    else FindTagFrom(s, pat, from + 1)
  }

  /** `/<pat[^>]*>/i.exec(s)`: start and end of the leftmost match. */
  function FindTag(s: string, pat: string): (r: Option<(nat, nat)>)
    ensures r.Some? <==> HasTag(s, pat)
    ensures r.Some? ==> LeftmostTag(s, pat, r.value.0, r.value.1)
  {
    FindTagFrom(s, pat, 0)
  }

  /** Where and what `ensureMacFonts` inserts. */
  datatype Injection = Splice(at: nat, inserted: string) | Wrap

  /** The four tiers in priority order, characterised by what the content
      contains rather than by how it is searched. */
  function PlanInjection(c: string): (p: Injection)
    ensures p.Splice? ==> p.at <= |c|
    ensures HasMatch(c, "</head>") ==>
      && p.Splice? && p.inserted == Block
      && MatchesAt(c, p.at, "</head>")
      && (forall j: nat :: p.at < j ==> !MatchesAt(c, j, "</head>"))
    ensures !HasMatch(c, "</head>") && HasTag(c, "<head") ==>
      && p.Splice? && p.inserted == Block
      && exists start: nat :: LeftmostTag(c, "<head", start, p.at)
    ensures !HasMatch(c, "</head>") && !HasTag(c, "<head") && HasTag(c, "<html") ==>
      && p.Splice? && p.inserted == HeadWithBlock
      && exists start: nat :: LeftmostTag(c, "<html", start, p.at)
    ensures p.Wrap? <==> !HasMatch(c, "</head>") && !HasTag(c, "<head") && !HasTag(c, "<html")
  {
    match LastIndexOfIgnoreCase(c, "</head>")
    case Some(k) => Splice(k, Block)
    case None =>
      match FindTag(c, "<head")
      case Some(m) => Splice(m.1, Block)
      case None =>
        match FindTag(c, "<html")
        case Some(m) => Splice(m.1, HeadWithBlock)
        case None => Wrap
  }

  /** `ensureMacFonts(content)` under the given theme. */
  function EnsureMacFonts(theme: string, content: string): (r: string)
    ensures theme != "macosx" || content == "" ==> r == content
    ensures theme == "macosx" && content != "" ==>
      match PlanInjection(content)
      case Splice(k, ins) => r == content[..k] + ins + content[k..]
      case Wrap => r == WrapPrefix + content + WrapSuffix
  {
    if theme != "macosx" || content == "" then content
    else
      match PlanInjection(content)
      case Splice(k, ins) => content[..k] + ins + content[k..]
      case Wrap => WrapPrefix + content + WrapSuffix
  }

  /** Cutting a spliced-in non-empty block out again gives the original. */
  lemma SpliceIsRemovable(c: string, k: nat, ins: string)
    requires k <= |c| && |ins| > 0
    ensures var r := c[..k] + ins + c[k..];
      && |r| > |c|
      && r[k..k + |ins|] == ins
      && r[..k] + r[k + |ins|..] == c
  {
    var r := c[..k] + ins + c[k..];
    assert r[..k] == c[..k];
    assert r[k..k + |ins|] == ins;
    assert r[k + |ins|..] == c[k..];
  }

  /** The wrapped content stands verbatim between prefix and suffix. */
  lemma WrapIsRemovable(pre: string, c: string, suf: string)
    ensures var r := pre + c + suf;
      && StartsWith(r, pre) && EndsWith(r, suf)
      && r[|pre|..|r| - |suf|] == c
  {
    var r := pre + c + suf;
    assert r[..|pre|] == pre;
    assert r[|r| - |suf|..] == suf;
    assert r[|pre|..|r| - |suf|] == c;
  }

  /** The content survives intact: in the splice tiers, cutting the inserted
      block out of the result gives the content back; in the wrap tier, the
      content stands verbatim between `<body>` and `</body></html>`. The
      result equals the content exactly when nothing is injected. */
  lemma {:induction false} FontInjectionKeepsContent(theme: string, content: string)
    ensures var r := EnsureMacFonts(theme, content);
      r == content <==> theme != "macosx" || content == ""
    ensures theme == "macosx" && content != "" && PlanInjection(content).Splice? ==>
      var r := EnsureMacFonts(theme, content);
      var k, ins := PlanInjection(content).at, PlanInjection(content).inserted;
      && k + |ins| <= |r|
      && r[k..k + |ins|] == ins
      && r[..k] + r[k + |ins|..] == content
    ensures theme == "macosx" && content != "" && PlanInjection(content).Wrap? ==>
      var r := EnsureMacFonts(theme, content);
      && StartsWith(r, WrapPrefix) && EndsWith(r, WrapSuffix)
      && r[|WrapPrefix|..|r| - |WrapSuffix|] == content
  {
    if theme == "macosx" && content != "" {
      var p := PlanInjection(content);
      if p.Splice? {
        assert |p.inserted| > 0 by {
          assert p.inserted == Block || p.inserted == HeadWithBlock;
        }
        SpliceIsRemovable(content, p.at, p.inserted);
      } else {
        WrapIsRemovable(WrapPrefix, content, WrapSuffix);
      }
    }
  }

  /** `MatchesAt` compares against the lower-cased text, so `</HEAD>` is
      found like `</head>`. */
  lemma UpperCaseHeadCloseMatches(a: string, b: string)
    ensures MatchesAt(a + "</HEAD>" + b, |a|, "</head>")
  {
    var s := a + "</HEAD>" + b;
    assert s[|a|..|a| + 7] == "</HEAD>";
    assert Lower("</HEAD>") == "</head>";
  }

  /** `<head[^>]*>` also matches `<header>`: content that starts with a
      `<header>` element and has no `</head>` gets the block right after
      `<header>`, inside the page body. */
  lemma HeaderTagTakenForHead(t: string)
    requires !HasMatch("<header>" + t, "</head>")
    ensures PlanInjection("<header>" + t) == Splice(8, Block)
  {
    var s := "<header>" + t;
    assert s[..5] == "<head";
    assert Lower(s[0..5]) == "<head";
    assert s[7] == '>';
    assert '>' in s[5..];
    assert TagAt(s, 0, "<head");
    var m := FindTag(s, "<head").value;
    assert m.0 == 0;
    assert s[5] == 'e' && s[6] == 'r';
    assert m.1 == 8;
  }
}

=== FILE: image_source.dfy ===
/** The file icon's thumbnail source: which source the image element shows,
    the one-time regeneration of a failing object URL, the absorbing fall
    back to the icon, and the object URLs the component owns.

    `URL.createObjectURL` is modelled by handing out the number `nextId` and
    recording it in `live`; `URL.revokeObjectURL` removes it from `live`. */
module ImageSourceState {
  import opened Wrappers
  import opened FileIcon

  /** The `content` property: absent, a string (an absent or empty string is
      falsy and ignored), or a Blob. There is one Blob per mounted icon as far
      as this model is concerned; only whether content is a Blob matters. */
  datatype Content = NoContent | TextContent(text: string) | BlobContent

  /** An entry of the attempted-URL set: a string, or an object URL. */
  datatype Key = StringKey(s: string) | Url(id: nat)

  /** The marker that records the one regeneration. */
  const RetryKey: Key := StringKey("blob-retry")

  datatype ImageState = ImageState(
    imgSrc: Option<ImageSource>,
    fallbackToIcon: bool,
    attempted: set<Key>,
    blobUrl: Option<nat>,
    live: set<nat>,
    nextId: nat)

  /** The component owns at most the object URL it remembers, and every
      object URL it created was numbered before `nextId`. */
  ghost predicate Valid(st: ImageState) {
    && (forall id :: id in st.live ==> st.blobUrl == Some(id))
    && (st.blobUrl.Some? ==> st.blobUrl.value < st.nextId)
  }

  /** Object URLs still held after `st.blobUrl` is revoked. */
  function Revoke(st: ImageState): (r: set<nat>)
    ensures r <= st.live
    ensures forall id :: id in st.live && Some(id) != st.blobUrl ==> id in r
    ensures st.blobUrl.Some? ==> st.blobUrl.value !in r
  {
    if st.blobUrl.Some? then st.live - {st.blobUrl.value} else st.live
  }

  /** Revokes the remembered object URL and creates a fresh one, which becomes
      the remembered one and the image source. */
  function Regenerate(st: ImageState): (r: ImageState)
    ensures r.blobUrl == Some(st.nextId) && r.imgSrc == Some(ObjectUrl(st.nextId))
    ensures r.live == Revoke(st) + {st.nextId} && r.nextId == st.nextId + 1
    ensures r.fallbackToIcon == st.fallbackToIcon && r.attempted == st.attempted
  {
    st.(live := Revoke(st) + {st.nextId}, blobUrl := Some(st.nextId),
        imgSrc := Some(ObjectUrl(st.nextId)), nextId := st.nextId + 1)
  }

  /** The state on mount: the image source starts as `contentUrl`. */
  function Init(contentUrl: string): (st: ImageState)
    ensures Valid(st) && st.live == {} && !st.fallbackToIcon
    ensures st.imgSrc.Some? <==> contentUrl != ""
    ensures st.imgSrc.Some? ==> st.imgSrc.value == Given(contentUrl)
  {
    ImageState(if contentUrl != "" then Some(Given(contentUrl)) else None, false, {}, None, {}, 0)
  }

  /** The setup effect, run on mount and whenever `content` or `contentUrl`
      changes. After the attempted set is cleared its membership tests always
      pass, so they do not appear here. */
  function Setup(st: ImageState, content: Content, contentUrl: string): (r: ImageState)
    ensures st.fallbackToIcon ==> r == st
    ensures !st.fallbackToIcon && contentUrl != "" ==>
      r == st.(imgSrc := Some(Given(contentUrl)), attempted := {StringKey(contentUrl)})
    ensures !st.fallbackToIcon && contentUrl == "" && content.BlobContent? ==>
      && r == Regenerate(st).(attempted := {Url(st.nextId)})
      && RetryKey !in r.attempted
    ensures !st.fallbackToIcon && contentUrl == "" && content.TextContent? && content.text != "" ==>
      r == st.(imgSrc := Some(Given(content.text)), attempted := {StringKey(content.text)})
    ensures !st.fallbackToIcon && contentUrl == "" && (content.NoContent? || content == TextContent("")) ==>
      r == st.(attempted := {})
  {
    if st.fallbackToIcon then st
    else if contentUrl != "" then st.(imgSrc := Some(Given(contentUrl)), attempted := {StringKey(contentUrl)})
    else match content
      case BlobContent => Regenerate(st).(attempted := {Url(st.nextId)})
      case TextContent(s) =>
        if s != "" then st.(imgSrc := Some(Given(s)), attempted := {StringKey(s)})
        else st.(attempted := {})
      case NoContent => st.(attempted := {})
  }

  /** The image currently shows the object URL the component made for the
      Blob content: only then is a regeneration worth trying. */
  predicate ShowsOwnBlobUrl(st: ImageState, content: Content) {
    content.BlobContent? && st.blobUrl.Some? && st.imgSrc == Some(ObjectUrl(st.blobUrl.value))
  }

  /** `handleImageError`: regenerate the object URL once, else fall back. */
  function ImageError(st: ImageState, content: Content): (r: ImageState)
    ensures var retry := !st.fallbackToIcon && ShowsOwnBlobUrl(st, content) && RetryKey !in st.attempted;
      && (retry ==> r == Regenerate(st).(attempted := st.attempted + {RetryKey}))
      && (!retry ==> r == st.(fallbackToIcon := true))
  {
    if !st.fallbackToIcon && ShowsOwnBlobUrl(st, content) && RetryKey !in st.attempted then
      Regenerate(st).(attempted := st.attempted + {RetryKey})
    else st.(fallbackToIcon := true)
  }

  /** The unmount cleanup. */
  function Unmount(st: ImageState): (r: ImageState)
    ensures r.live == Revoke(st)
    ensures r == st.(live := r.live)
  {
    st.(live := Revoke(st))
  }

  /** Every transition keeps the ownership invariant; so at most one object
      URL is live at any time, and none after unmount. */
  lemma TransitionsKeepValid(st: ImageState, content: Content, contentUrl: string)
    requires Valid(st)
    ensures Valid(Setup(st, content, contentUrl))
    ensures Valid(ImageError(st, content))
    ensures Valid(Unmount(st)) && Unmount(st).live == {}
  {}

  /** The invariant bounds the number of live object URLs by one. */
  lemma {:induction false} AtMostOneLiveUrl(st: ImageState)
    requires Valid(st)
    ensures |st.live| <= 1
  {
    if st.blobUrl.Some? && st.blobUrl.value in st.live {
      assert st.live == {st.blobUrl.value};
    } else {
      assert st.live == {};
    }
  }

  /** Falling back to the icon is never undone. */
  lemma FallbackIsAbsorbing(st: ImageState, content: Content, contentUrl: string)
    requires st.fallbackToIcon
    ensures Setup(st, content, contentUrl) == st
    ensures ImageError(st, content) == st
    ensures Unmount(st).fallbackToIcon
  {}

  /** Two load errors in a row, with no setup between them, always end in the
      icon: the regeneration budget is one. */
  lemma SecondErrorFallsBack(st: ImageState, content: Content)
    ensures ImageError(ImageError(st, content), content).fallbackToIcon
  {}

  /** An error on anything but the component's own object URL for Blob
      content falls straight back to the icon. */
  lemma ForeignSourceFallsBack(st: ImageState, content: Content)
    requires !ShowsOwnBlobUrl(st, content)
    ensures ImageError(st, content) == st.(fallbackToIcon := true)
  {}

  /** Setup for Blob content re-arms the budget: the next error regenerates
      the URL instead of falling back, and that new URL is fresh. */
  lemma SetupRearmsRetry(st: ImageState)
    requires !st.fallbackToIcon && Valid(st)
    ensures var s := Setup(st, BlobContent, "");
      var e := ImageError(s, BlobContent);
      && !e.fallbackToIcon
      && e.imgSrc == Some(ObjectUrl(s.nextId))
      && s.nextId !in s.live
  {}

  /** Once fallen back, the icon is drawn instead of the thumbnail. */
  lemma FallbackShowsNoThumbnail(st: ImageState, name: string, isDirectory: bool, icon: string)
    requires st.fallbackToIcon
    ensures !Render(name, isDirectory, icon, st.imgSrc, st.fallbackToIcon).Thumbnail?
  {}
}

=== FILE: import_input.dfy ===
/** The hidden file input in the menu bar that feeds the viewer's import
    handler. A browser fires `change` only when the chosen file differs from
    the input's current value, so whether a second import of the same file
    happens depends on the handler clearing that value afterwards. The
    handler tries to, through the viewer's own `fileInputRef`, which no
    element is attached to, so the input that fired keeps its value for as
    long as it stays mounted.

    The input is part of the menu bar, and the menu bar is mounted exactly
    while it has a placement: always on xp and win98 while the window is
    open, otherwise only while the window is in front. When the menu bar is
    unmounted and mounted again (for instance when a successful import opens
    a new viewer window in front), the input comes back empty. */
module ImportInput {
  import MenuBar

  /** The input's value: the name of the file chosen last, "" when cleared. */
  datatype FileInput = FileInput(value: string)

  /** What happens to the input: the user chooses a file in the dialog, or
      the menu bar is unmounted and mounted again. */
  datatype Event = ChooseFile(name: string) | Remount

  /** One choice in the dialog: whether `change` fired, and the input after. */
  datatype Pick = Pick(changed: bool, input: FileInput)

  function Choose(input: FileInput, file: string): (r: Pick)
    ensures r.input.value == file
    ensures r.changed <==> input.value != file
  {
    Pick(input.value != file, FileInput(file))
  }

  /** The input element exists: its menu bar is placed somewhere. */
  predicate InputMounted(isWindowOpen: bool, theme: string, isForeground: bool) {
    MenuBar.MenuBarPlacement(isWindowOpen, theme, isForeground) != MenuBar.Hidden
  }

  /** On xp and win98 the input stays mounted while the window is open; on
      every other theme it is mounted exactly while the window is in front, so
      leaving the front remounts it. */
  lemma InputMountedWhile(isWindowOpen: bool, theme: string, isForeground: bool)
    ensures (theme == "xp" || theme == "win98") ==>
      (InputMounted(isWindowOpen, theme, isForeground) <==> isWindowOpen)
    ensures theme != "xp" && theme != "win98" ==>
      (InputMounted(isWindowOpen, theme, isForeground) <==> isWindowOpen && isForeground)
  {}

  /** The reset at the end of the handler as written: it goes through a ref
      that is never attached, so the input keeps its value. */
  function ResetAsWritten(input: FileInput): (r: FileInput)
    ensures r.value == input.value
  {
    input
  }

  /** The reset the handler evidently intends: the input that fired is
      cleared. */
  function ResetCleared(input: FileInput): (r: FileInput)
    ensures r.value == ""
  {
    FileInput("")
  }

  /** The number of file choices among the events. */
  function Choices(events: seq<Event>): (n: nat)
    ensures n <= |events|
    decreases |events|
  {
    if |events| == 0 then 0
    else (if events[0].ChooseFile? then 1 else 0) + Choices(events[1..])
  }

  /** How many imports a sequence of events triggers, each import followed by
      the handler's reset (`cleared` selects the intended reset); a remount
      brings the input back empty. */
  function ImportCount(cleared: bool, input: FileInput, events: seq<Event>): (n: nat)
    ensures n <= Choices(events)
    decreases |events|
  {
    if |events| == 0 then 0
    else match events[0]
      case Remount => ImportCount(cleared, FileInput(""), events[1..])
      case ChooseFile(f) =>
        var p := Choose(input, f);
        var next := if !p.changed then p.input
                    else if cleared then ResetCleared(p.input) else ResetAsWritten(p.input);
        (if p.changed then 1 else 0) + ImportCount(cleared, next, events[1..])
  }

  /** As written, choosing the same file twice while the menu bar stays
      mounted imports it once. */
  lemma SameFileTwiceImportsOnce(f: string)
    requires f != ""
    ensures ImportCount(false, FileInput(""), [ChooseFile(f), ChooseFile(f)]) == 1
  {}

  /** A remount between the two choices, as when the window leaves the front
      on a theme other than xp and win98, makes the second choice import. */
  lemma RemountBetweenImportsTwice(f: string)
    requires f != ""
    ensures ImportCount(false, FileInput(""), [ChooseFile(f), Remount, ChooseFile(f)]) == 2
  {
    var evs := [ChooseFile(f), Remount, ChooseFile(f)];
    assert evs[1..] == [Remount, ChooseFile(f)];
    assert evs[1..][1..] == [ChooseFile(f)];
    assert ImportCount(false, FileInput(""), [ChooseFile(f)]) == 1 by {
      assert [ChooseFile(f)][1..] == [];
    }
  }

  /** With the input cleared after every import, every choice of a real file
      imports it, however often the same file is chosen, remounts or not. */
  lemma {:induction false} ClearedInputImportsEveryPick(input: FileInput, events: seq<Event>)
    requires input.value == ""
    requires forall i :: 0 <= i < |events| && events[i].ChooseFile? ==> events[i].name != ""
    ensures ImportCount(true, input, events) == Choices(events)
    decreases |events|
  {
    if |events| > 0 {
      if events[0].ChooseFile? {
        assert Choose(input, events[0].name).changed;
      }
      assert forall i :: 0 <= i < |events[1..]| ==> events[1..][i] == events[i + 1];
      ClearedInputImportsEveryPick(FileInput(""), events[1..]);
    }
  }
}

=== FILE: menu_bar.dfy ===
/** The applet viewer's menu bar: the File menu, whose export submenu depends
    on the viewer having content, and the Window menu, which lists the open
    applet-viewer windows with their file names and a check mark on the
    active one. */
module MenuBar {
  import opened Text
  import opened Wrappers
  import opened AppletNames
  import AppletFiles

  /** The registry fields the Window menu reads; `path` is the instance's
      `initialData.path`, "" when absent. */
  datatype AppInstance = AppInstance(instanceId: string, appId: string, isOpen: bool, path: string)

  predicate IsOpenApplet(inst: AppInstance) {
    inst.appId == "applet-viewer" && inst.isOpen
  }

  /** `appletInstances`: the registry, in enumeration order, filtered to open
      applet-viewer windows. */
  function AppletInstances(registry: seq<AppInstance>): (r: seq<AppInstance>)
    ensures |r| <= |registry|
    ensures forall inst :: inst in r <==> inst in registry && IsOpenApplet(inst)
    decreases |registry|
  {
    if |registry| == 0 then []
    else
      var rest := AppletInstances(registry[1..]);
      assert forall inst :: inst in registry <==> inst == registry[0] || inst in registry[1..];
      if IsOpenApplet(registry[0]) then [registry[0]] + rest else rest
  }

  /** The filter keeps registry order: it distributes over concatenation. */
  lemma {:induction false} AppletInstancesKeepOrder(a: seq<AppInstance>, b: seq<AppInstance>)
    ensures AppletInstances(a + b) == AppletInstances(a) + AppletInstances(b)
    decreases |a|
  {
    if |a| > 0 {
      assert (a + b)[1..] == a[1..] + b;
      assert (a + b)[0] == a[0];
      AppletInstancesKeepOrder(a[1..], b);
    } else {
      assert a + b == b;
    }
  }

  /** An item of the Window menu. */
  datatype WindowItem =
    | Placeholder                                          // "No applets open", disabled
    | Entry(fileName: string, active: bool, instanceId: string)

  function EntryFor(inst: AppInstance, current: Option<string>): (e: WindowItem)
    ensures e.Entry? && e.instanceId == inst.instanceId
    ensures e.fileName == DisplayName(inst.path)
    ensures e.active <==> current == Some(inst.instanceId)
  {
    Entry(DisplayName(inst.path), current == Some(inst.instanceId), inst.instanceId)
  }

  function Entries(apps: seq<AppInstance>, current: Option<string>): (r: seq<WindowItem>)
    ensures |r| == |apps|
    ensures forall i :: 0 <= i < |apps| ==> r[i] == EntryFor(apps[i], current)
    decreases |apps|
  {
    if |apps| == 0 then [] else [EntryFor(apps[0], current)] + Entries(apps[1..], current)
  }

  /** The Window menu for the given registry and `instanceId` property
      (None when the property is not passed). */
  function WindowMenu(registry: seq<AppInstance>, current: Option<string>): (items: seq<WindowItem>)
    ensures items == [Placeholder] <==> |AppletInstances(registry)| == 0
    ensures |AppletInstances(registry)| > 0 ==>
      && |items| == |AppletInstances(registry)|
      && forall i :: 0 <= i < |items| ==>
           var inst := AppletInstances(registry)[i];
           && items[i].Entry?
           && items[i].fileName == DisplayName(inst.path)
           && items[i].instanceId == inst.instanceId
           && (items[i].active <==> current == Some(inst.instanceId))
  {
    var apps := AppletInstances(registry);
    if |apps| == 0 then [Placeholder]
    else
      var r := Entries(apps, current);
      assert r[0].Entry?;
      r
  }

  /** The text shown for an item. */
  function Caption(item: WindowItem): (s: string)
    ensures item.Entry? && item.active ==> s == "\U{2713} " + item.fileName
    ensures item.Entry? && !item.active ==> s == item.fileName
    ensures item.Placeholder? ==> s == "No applets open"
  {
    match item
    case Placeholder => "No applets open"
    case Entry(fileName, active, _) => if active then "\U{2713} " + fileName else fileName
  }

  predicate DistinctIds(apps: seq<AppInstance>) {
    forall i, j :: 0 <= i < j < |apps| ==> apps[i].instanceId != apps[j].instanceId
  }

  /** With distinct instance ids, at most one entry carries the check mark. */
  lemma AtMostOneActive(registry: seq<AppInstance>, current: Option<string>, i: nat, j: nat)
    requires DistinctIds(AppletInstances(registry))
    requires i < |AppletInstances(registry)| && j < |AppletInstances(registry)|
    ensures WindowMenu(registry, current)[i].active && WindowMenu(registry, current)[j].active ==> i == j
  {
    var apps := AppletInstances(registry);
    var items := WindowMenu(registry, current);
    assert items[i].instanceId == apps[i].instanceId && items[j].instanceId == apps[j].instanceId;
  }

  /** The viewer does not pass its instance id to the menu bar, so no entry is
      ever marked active. */
  lemma NoEntryActiveWithoutId(registry: seq<AppInstance>)
    ensures forall item :: item in WindowMenu(registry, None) ==> !(item.Entry? && item.active)
  {}

  /** Clicking an item: an entry brings its own instance to the foreground,
      the disabled placeholder does nothing. */
  function ClickItem(item: WindowItem): (r: Option<string>)
    ensures r.Some? <==> item.Entry?
    ensures item.Entry? ==> r == Some(item.instanceId)
  {
    match item
    case Placeholder => None
    case Entry(_, _, id) => Some(id)
  }

  /** The i-th entry brings forward exactly the i-th open applet window. */
  lemma EntryClickTargetsItsWindow(registry: seq<AppInstance>, current: Option<string>, i: nat)
    requires i < |AppletInstances(registry)|
    ensures var items := WindowMenu(registry, current);
      i < |items| && ClickItem(items[i]) == Some(AppletInstances(registry)[i].instanceId)
  {}

  /** Items of the File menu. */
  datatype FileItem = Open | ImportFromDevice | ExportAs(formats: seq<ExportFormat>) | Close
  datatype ExportFormat = RyosApp | Html

  const ExportSubmenu: FileItem := ExportAs([RyosApp, Html])

  /** The File menu; the export submenu only appears when there is content. */
  function FileMenu(hasAppletContent: bool): (r: seq<FileItem>)
    ensures |r| >= 3 && r[0] == Open && r[1] == ImportFromDevice && r[|r| - 1] == Close
    ensures ExportSubmenu in r <==> hasAppletContent
    ensures forall item :: item in r && item.ExportAs? ==> item == ExportSubmenu
  {
    if hasAppletContent then [Open, ImportFromDevice, ExportSubmenu, Close]
    else [Open, ImportFromDevice, Close]
  }

  /** The export submenu is offered exactly when both exports produce a
      download. */
  lemma ExportMenuMatchesExports(path: string, content: string, files: seq<AppletFiles.FileEntry>)
    ensures ExportSubmenu in FileMenu(!IsBlank(content))
            <==> AppletFiles.ExportAsApp(path, content, files).Some?
    ensures AppletFiles.ExportAsApp(path, content, files).Some?
            <==> AppletFiles.ExportAsHtml(path, content).Some?
  {
    var has := !IsBlank(content);
    assert ExportSubmenu in FileMenu(has) <==> has;
    assert AppletFiles.ExportAsApp(path, content, files).None? <==> IsBlank(content);
    assert AppletFiles.ExportAsHtml(path, content).None? <==> IsBlank(content);
  }

  /** Where the viewer puts its menu bar: nowhere while the window is closed
      (the component renders nothing); inside the window frame on the Windows
      themes; at the top of the screen otherwise, and there only while the
      window is in front. */
  datatype Placement = TopOfScreen | InWindowFrame | Hidden

  function MenuBarPlacement(isWindowOpen: bool, theme: string, isForeground: bool): (r: Placement)
    ensures !isWindowOpen ==> r == Hidden
    ensures r == InWindowFrame <==> isWindowOpen && (theme == "xp" || theme == "win98")
    ensures r == TopOfScreen <==> isWindowOpen && theme != "xp" && theme != "win98" && isForeground
  {
    if !isWindowOpen then Hidden
    else if theme == "xp" || theme == "win98" then InWindowFrame
    else if isForeground then TopOfScreen
    else Hidden
  }

  /** Without an `instanceId` every caption is the plain display name of its
      window's file, in registry order: the Window menu never shows a check
      mark in the viewer. */
  lemma CaptionsWithoutId(registry: seq<AppInstance>, i: nat)
    requires i < |AppletInstances(registry)|
    ensures var items := WindowMenu(registry, None);
      i < |items| && Caption(items[i]) == DisplayName(AppletInstances(registry)[i].path)
  {}
}

=== FILE: text.dfy ===
/** String helpers shared by the applet viewer and the file icon: JavaScript's
    whitespace class, ASCII case folding, prefix/suffix tests, UTF-16 length and
    "text after the last separator" (the `split(sep).pop()` idiom).

    A Dafny `char` is a Unicode scalar value, i.e. one code point; a JavaScript
    string is a sequence of UTF-16 code units, so `.length` is modelled by
    `Utf16Len` wherever the source compares it with a bound. */
module Text {

  /** The characters JavaScript's `\s` matches, which are also the ones
      `String.prototype.trim` removes (ECMAScript WhiteSpace and LineTerminator). */
  predicate IsSpace(c: char) {
    || c == '\t' || c == '\n' || c == '\U{000B}' || c == '\U{000C}' || c == '\r'
    || c == ' ' || c == '\U{00A0}' || c == '\U{1680}'
    || ('\U{2000}' <= c <= '\U{200A}')
    || c == '\U{2028}' || c == '\U{2029}' || c == '\U{202F}' || c == '\U{205F}'
    || c == '\U{3000}' || c == '\U{FEFF}'
  }

  /** Every character is whitespace (the empty string included). */
  predicate IsBlank(s: string) {
    forall i :: 0 <= i < |s| ==> IsSpace(s[i])
  }

  /** `s.trimStart()`. */
  function TrimStart(s: string): (r: string)
    ensures |r| <= |s| && r == s[|s| - |r|..]
    ensures forall i :: 0 <= i < |s| - |r| ==> IsSpace(s[i])
    ensures |r| > 0 ==> !IsSpace(r[0])
    decreases |s|
  {
    if |s| == 0 || !IsSpace(s[0]) then s else TrimStart(s[1..])
  }

  /** `s.trimEnd()`. */
  function TrimEnd(s: string): (r: string)
    ensures |r| <= |s| && r == s[..|r|]
    ensures forall i :: |r| <= i < |s| ==> IsSpace(s[i])
    ensures |r| > 0 ==> !IsSpace(r[|r| - 1])
    decreases |s|
  {
    if |s| == 0 || !IsSpace(s[|s| - 1]) then s else TrimEnd(s[..|s| - 1])
  }

  /** `s.trim()`. */
  function Trim(s: string): string {
    TrimEnd(TrimStart(s))
  }

  /** `s.trim().length > 0` holds exactly when some character is not whitespace. */
  lemma TrimEmptyIffBlank(s: string)
    ensures |Trim(s)| == 0 <==> IsBlank(s)
  {
    var t := TrimStart(s);
    if |Trim(s)| == 0 {
      // TrimEnd would have kept a leading non-space character of t
      assert |t| == 0;
    } else {
      assert !IsSpace(t[0]);
      assert t[0] == s[|s| - |t|];
    }
  }

  predicate StartsWith(s: string, p: string) {
    |p| <= |s| && s[..|p|] == p
  }

  predicate EndsWith(s: string, p: string) {
    |p| <= |s| && s[|s| - |p|..] == p
  }

  /** ASCII lower-casing of one character; other characters are unchanged. */
  function LowerChar(c: char): char {
    if 'A' <= c <= 'Z' then (c as int + 32) as char else c
  }

  /** `toLowerCase` restricted to ASCII letters; it keeps the length, so an
      index into the lower-cased copy is an index into the original. */
  function Lower(s: string): (r: string)
    ensures |r| == |s|
    ensures forall i :: 0 <= i < |s| ==> r[i] == LowerChar(s[i])
  {
    seq(|s|, i requires 0 <= i < |s| => LowerChar(s[i]))
  }

  /** `s` ends with `p` when both are compared case-insensitively; `p` is
      expected in lower case, as in the source's `/i` patterns. */
  predicate EndsWithIgnoreCase(s: string, p: string) {
    |p| <= |s| && Lower(s[|s| - |p|..]) == p
  }

  /** Number of UTF-16 code units in `s`: code points outside the Basic
      Multilingual Plane take a surrogate pair. */
  function Utf16Len(s: string): (n: nat)
    ensures |s| <= n <= 2 * |s|
  {
    if |s| == 0 then 0
    else (if s[0] as int >= 0x10000 then 2 else 1) + Utf16Len(s[1..])
  }

  /** Where the text after the last separator among the first `n`
      characters starts: just after that separator, or 0 when there is none. */
  function SegmentStart(s: string, sep: char, n: nat): (k: nat)
    requires n <= |s|
    ensures k <= n
    ensures k == 0 || s[k - 1] == sep
    ensures forall i :: k <= i < n ==> s[i] != sep
    decreases n
  {
    if n == 0 || s[n - 1] == sep then n else SegmentStart(s, sep, n - 1)
  }

  /** `s.split(sep).pop()`: the longest suffix of `s` that does not contain `sep`. */
  function AfterLast(s: string, sep: char): (r: string)
    ensures |r| <= |s| && r == s[|s| - |r|..]
    ensures sep !in r
    ensures |r| < |s| ==> s[|s| - |r| - 1] == sep
  {
    var k := SegmentStart(s, sep, |s|);
    assert forall i :: 0 <= i < |s| - k ==> s[k..][i] == s[k + i];
    s[k..]
  }

  /** The text after the last `/` of a path. */
  function LastSegment(path: string): (r: string)
    ensures '/' !in r
    ensures EndsWith(path, r)
    ensures r == path || EndsWith(path, "/" + r)
  {
    var r := AfterLast(path, '/');
    assert |r| < |path| ==> path[|path| - |r| - 1..] == "/" + r;
    r
  }
}

=== FILE: window_state.dfy ===
/** The applet viewer's window-state effects: applying the size saved for an
    applet to its window once, mirroring the live window size back into the
    per-applet size store, and bringing a background window forward when the
    user interacts with the applet inside it.

    The application store (window instances by id) and the applet store
    (window sizes by applet path) are modelled as maps; what the effects ask
    of them is returned as data. An absent `instanceId` is "". */
module WindowState {
  import opened Wrappers

  datatype Size = Size(width: int, height: int)
  datatype Position = Position(x: int, y: int)

  /** The part of a window instance these effects read or write. */
  datatype Instance = Instance(size: Option<Size>, position: Option<Position>, isForeground: bool)

  type Instances = map<string, Instance>

  /** `updateInstanceWindowState(instanceId, position, size)`. */
  datatype WindowUpdate = WindowUpdate(instanceId: string, position: Position, size: Size)

  /** One run of the apply-saved-size effect: the new value of the one-shot
      flag and the update it requests, if any. */
  datatype ApplyStep = ApplyStep(applied: bool, update: Option<WindowUpdate>)

  /** The saved size effect: skipped once applied; returns early, leaving the
      flag unset, without an instance id, a saved size or a registered
      instance; otherwise requests the saved size (keeping the position, or
      (0, 0) when there is none) unless the window already has it, and sets
      the flag. */
  function ApplySavedSize(applied: bool, instanceId: string, savedSize: Option<Size>,
                          instances: Instances): (r: ApplyStep)
    ensures applied ==> r == ApplyStep(true, None)
    ensures r.applied <==> applied || (instanceId != "" && savedSize.Some? && instanceId in instances)
    ensures r.update.Some? <==>
      && !applied && instanceId != "" && savedSize.Some? && instanceId in instances
      && instances[instanceId].size != savedSize
    ensures r.update.Some? ==>
      && r.update.value.instanceId == instanceId
      && r.update.value.size == savedSize.value
      && r.update.value.position ==
           (if instances[instanceId].position.Some? then instances[instanceId].position.value
            else Position(0, 0))
  {
    if applied then ApplyStep(true, None)
    else if instanceId == "" || savedSize.None? then ApplyStep(false, None)
    else if instanceId !in instances then ApplyStep(false, None)
    else
      var inst := instances[instanceId];
      var saved := savedSize.value;
      if inst.size.None? || inst.size.value.width != saved.width || inst.size.value.height != saved.height then
        var pos := if inst.position.Some? then inst.position.value else Position(0, 0);
        ApplyStep(true, Some(WindowUpdate(instanceId, pos, saved)))
      else ApplyStep(true, None)
  }

  /** The store applying a window update to the instance it names. */
  function ApplyUpdate(instances: Instances, u: WindowUpdate): (r: Instances)
    requires u.instanceId in instances
    ensures r.Keys == instances.Keys
    ensures r[u.instanceId].size == Some(u.size) && r[u.instanceId].position == Some(u.position)
    ensures r[u.instanceId].isForeground == instances[u.instanceId].isForeground
    ensures forall id :: id in instances && id != u.instanceId ==> r[id] == instances[id]
  {
    instances[u.instanceId := instances[u.instanceId].(size := Some(u.size), position := Some(u.position))]
  }

  /** After the requested update, the window has the saved size, and a second
      run (even with the flag lost) has nothing left to request. */
  lemma SavedSizeReached(instanceId: string, savedSize: Option<Size>, instances: Instances)
    requires ApplySavedSize(false, instanceId, savedSize, instances).update.Some?
    ensures var u := ApplySavedSize(false, instanceId, savedSize, instances).update.value;
      var after := ApplyUpdate(instances, u);
      && after[instanceId].size == savedSize
      && ApplySavedSize(false, instanceId, savedSize, after).update.None?
  {}

  /** What the effect sees on one run: the saved size and the registry. */
  datatype Snapshot = Snapshot(savedSize: Option<Size>, instances: Instances)

  /** Runs the effect over a sequence of renders of one mounted viewer and
      collects the updates it requests. */
  function RunApplyEffect(applied: bool, instanceId: string, runs: seq<Snapshot>): (r: (bool, seq<WindowUpdate>))
    ensures applied ==> r == (true, [])
    ensures |r.1| > 0 ==> r.0
    decreases |runs|
  {
    if |runs| == 0 then (applied, [])
    else
      var step := ApplySavedSize(applied, instanceId, runs[0].savedSize, runs[0].instances);
      var rest := RunApplyEffect(step.applied, instanceId, runs[1..]);
      (rest.0, (if step.update.Some? then [step.update.value] else []) + rest.1)
  }

  /** The saved size is applied at most once per mount, whatever the renders. */
  lemma {:induction false} AppliedAtMostOnce(instanceId: string, runs: seq<Snapshot>)
    ensures |RunApplyEffect(false, instanceId, runs).1| <= 1
    decreases |runs|
  {
    if |runs| > 0 {
      var step := ApplySavedSize(false, instanceId, runs[0].savedSize, runs[0].instances);
      if step.applied {
        assert RunApplyEffect(true, instanceId, runs[1..]) == (true, []);
      } else {
        AppliedAtMostOnce(instanceId, runs[1..]);
      }
    }
  }

  /** The result of one run of the size-persisting effect. */
  datatype PersistStep = PersistStep(stored: map<string, Size>, wrote: bool)

  /** `setAppletWindowSize(path, live)` when the path is set, a live size
      exists and it differs from the stored one. */
  function PersistSize(path: string, live: Option<Size>, stored: map<string, Size>): (r: PersistStep)
    ensures r.wrote <==> path != "" && live.Some? && (path !in stored || stored[path] != live.value)
    ensures !r.wrote ==> r.stored == stored
    ensures path != "" && live.Some? ==> path in r.stored && r.stored[path] == live.value
    ensures r.stored.Keys <= stored.Keys + {path}
    ensures forall p :: p in stored && p != path ==> p in r.stored && r.stored[p] == stored[p]
  {
    if path == "" || live.None? then PersistStep(stored, false)
    else
      var next := live.value;
      var saved := if path in stored then Some(stored[path]) else None;
      if saved.None? || saved.value.width != next.width || saved.value.height != next.height then
        PersistStep(stored[path := next], true)
      else PersistStep(stored, false)
  }

  /** The mirror settles: re-running it on what it stored writes nothing, so
      the effect cannot loop. */
  lemma PersistSizeSettles(path: string, live: Option<Size>, stored: map<string, Size>)
    ensures var once := PersistSize(path, live, stored);
      var twice := PersistSize(path, live, once.stored);
      !twice.wrote && twice.stored == once.stored
  {}

  /** The window state whose size is mirrored: the instance when there is an
      instance id, else the legacy per-app state. */
  function CurrentWindowState(instanceId: string, instances: Instances,
                              appState: Option<Instance>): (r: Option<Instance>)
    ensures instanceId == "" ==> r == appState
    ensures instanceId != "" ==> (r.Some? <==> instanceId in instances)
    ensures instanceId != "" && r.Some? ==> r.value == instances[instanceId]
  {
    if instanceId != "" then
      (if instanceId in instances then Some(instances[instanceId]) else None)
    else appState
  }

  /** The two size effects agree once the commit that applies the saved size
      has been rendered again: at that render the window state the mirror
      reads has the saved size, so the mirror stores it under the applet's
      path, and writes nothing when the store still holds the saved size
      there. `MountCommitOverwritesSavedSize` shows that the store may first
      hold something else. */
  lemma AppliedSizeMirrorsBack(instanceId: string, savedSize: Option<Size>, instances: Instances,
                               appState: Option<Instance>, path: string, stored: map<string, Size>)
    requires ApplySavedSize(false, instanceId, savedSize, instances).update.Some?
    ensures var after := ApplyUpdate(instances, ApplySavedSize(false, instanceId, savedSize, instances).update.value);
      var cur := CurrentWindowState(instanceId, after, appState);
      && cur.Some? && cur.value.size == savedSize
      && (path != "" ==> PersistSize(path, cur.value.size, stored).stored[path] == savedSize.value)
      && (path in stored && savedSize == Some(stored[path]) ==> !PersistSize(path, cur.value.size, stored).wrote)
  {}

  /** The size the mirror reads from a window state. */
  function SizeOf(state: Option<Instance>): (r: Option<Size>)
    ensures r.Some? ==> state.Some? && state.value.size == r
  {
    if state.Some? then state.value.size else None
  }

  /** The saved size the viewer reads while rendering: none without a path. */
  function SavedSizeAt(path: string, stored: map<string, Size>): (r: Option<Size>)
    ensures r.Some? <==> path != "" && path in stored
    ensures r.Some? ==> r.value == stored[path]
  {
    if path != "" && path in stored then Some(stored[path]) else None
  }

  /** What one commit leaves behind: the one-shot flag, the window registry,
      the size store, and whether the mirror wrote. */
  datatype Commit = Commit(applied: bool, instances: Instances, stored: map<string, Size>, wrote: bool)

  /** One render and its effects, in declaration order. Both effects see the
      values captured while rendering: the apply effect the saved size, the
      mirror the window state and the saved size. The update the apply effect
      requests only reaches the mirror at the next render. */
  function RenderCommit(applied: bool, instanceId: string, path: string, instances: Instances,
                        appState: Option<Instance>, stored: map<string, Size>): (c: Commit)
    ensures c.instances.Keys == instances.Keys
    ensures c.applied == ApplySavedSize(applied, instanceId, SavedSizeAt(path, stored), instances).applied
    ensures c.wrote <==> path != "" && SizeOf(CurrentWindowState(instanceId, instances, appState)).Some?
                         && SavedSizeAt(path, stored) != SizeOf(CurrentWindowState(instanceId, instances, appState))
    ensures c.wrote ==> path in c.stored && c.stored[path] == SizeOf(CurrentWindowState(instanceId, instances, appState)).value
    ensures !c.wrote ==> c.stored == stored
  {
    var saved := SavedSizeAt(path, stored);
    var live := SizeOf(CurrentWindowState(instanceId, instances, appState));
    var step := ApplySavedSize(applied, instanceId, saved, instances);
    var next := if step.update.Some? then ApplyUpdate(instances, step.update.value) else instances;
    var persist := PersistSize(path, live, stored);
    Commit(step.applied, next, persist.stored, persist.wrote)
  }

  /** A window that already has a size W other than the saved size S when the
      viewer mounts: the mount commit resizes the window to S but the mirror,
      still reading W, overwrites the saved entry with W; the next render
      writes S back; the one after writes nothing. */
  lemma MountCommitOverwritesSavedSize(instanceId: string, path: string, instances: Instances,
                                       appState: Option<Instance>, stored: map<string, Size>)
    requires instanceId != "" && path != "" && instanceId in instances && path in stored
    requires instances[instanceId].size.Some? && instances[instanceId].size.value != stored[path]
    ensures var c1 := RenderCommit(false, instanceId, path, instances, appState, stored);
      && c1.wrote && c1.stored[path] == instances[instanceId].size.value
      && c1.instances[instanceId].size == Some(stored[path])
      && var c2 := RenderCommit(c1.applied, instanceId, path, c1.instances, appState, c1.stored);
      && c2.wrote && c2.stored[path] == stored[path]
      && !RenderCommit(c2.applied, instanceId, path, c2.instances, appState, c2.stored).wrote
  {}

  /** Whatever size the window has at mount, the store and the window agree
      on the saved size after the second render, and the third writes
      nothing; the mount commit writes exactly when the window had another
      size. */
  lemma MountSettles(instanceId: string, path: string, instances: Instances,
                     appState: Option<Instance>, stored: map<string, Size>)
    requires instanceId != "" && path != "" && instanceId in instances && path in stored
    ensures var c1 := RenderCommit(false, instanceId, path, instances, appState, stored);
      && (c1.wrote <==> instances[instanceId].size.Some? && instances[instanceId].size.value != stored[path])
      && var c2 := RenderCommit(c1.applied, instanceId, path, c1.instances, appState, c1.stored);
      && c2.stored[path] == stored[path] && c2.instances[instanceId].size == Some(stored[path])
      && var c3 := RenderCommit(c2.applied, instanceId, path, c2.instances, appState, c2.stored);
      && !c3.wrote && c3.stored == c2.stored && c3.instances == c2.instances
  {}

  /** `handleInteract`: the instance to bring forward, if any. Listeners are
      only attached when there is an instance id. */
  function InteractRequest(instanceId: string, instances: Instances): (r: Option<string>)
    ensures r.Some? <==> instanceId != "" && instanceId in instances && !instances[instanceId].isForeground
    ensures r.Some? ==> r.value == instanceId
  {
    if instanceId == "" then None
    else if instanceId in instances && !instances[instanceId].isForeground then Some(instanceId)
    else None
  }

  /** The store's `bringInstanceToForeground`, as far as this window sees it. */
  function BringToForeground(instances: Instances, id: string): (r: Instances)
    requires id in instances
    ensures r.Keys == instances.Keys && r[id].isForeground
    ensures r[id].size == instances[id].size && r[id].position == instances[id].position
  {
    instances[id := instances[id].(isForeground := true)]
  }

  /** Once the request is served, further interaction requests nothing. */
  lemma InteractionSettles(instanceId: string, instances: Instances)
    requires InteractRequest(instanceId, instances).Some?
    ensures InteractRequest(instanceId, BringToForeground(instances, instanceId)).None?
  {}
}

=== FILE: wrappers.dfy ===
/** The optional-value type used throughout the model for JavaScript's
    `undefined`/`null` results. */
module Wrappers {
  datatype Option<T> = None | Some(value: T)
}
